=== FILE: README.md ===
# SimpleBehaviorTree core, modelled in Dafny

This project models three parts of the SimpleBehaviorTree Unity repository and
proves properties of each model.

- **Behaviour-tree evaluator.** `Node.Update` runs OnStart / OnUpdate / OnEnd
  around a node's own `OnUpdate`. The three composites are Sequence,
  Selector and Parallel with the And and Or policies. The leaf adapters are
  `ConditionNode`, `ActionNode` and `FailNode`. `BehaviorTreeController`
  clears the editor flags of the whole tree each frame and ticks the root
  once. A tree is an immutable `Node` value, and a tick returns the verdict,
  the new tree and the ordered trace of lifecycle events. The functions a
  leaf wraps are read from an environment keyed by leaf id and frame number.
- **Pooled events.** `PooledEvent` is a struct handle onto a `ColdData`
  record. `PooledEventManager` keeps those records on a LIFO free list that
  doubles its capacity when it runs dry. The records form a slot table; a
  `ColdData` reference is an index into it, and a callback is an opaque id.
  `Invoke` returns a log of the calls made and the exceptions logged.
- **Object pools.** `ObjectPoolManager` keeps one stack of pooled instances
  per prefab, `PooledObject` is the per-instance bookkeeping, and
  `PoolRegistry` is the table of per-prefab settings, built on first use.
  Instances are ids; instantiation takes the next fresh id.

Every operation is a pure function from the old state to the new one.

The modules follow the source:

| module | file | models |
|---|---|---|
| `Lifecycle` | `lifecycle.dfy` | `Node.Update` |
| `Tree` | `tree.dfy` | nodes and one tick |
| `TreeFacts` | `tree_facts.dfy` | properties of one tick |
| `Controller` | `controller.dfy` | `BehaviorTreeController` |
| `Cold` | `cold_data.dfy` | `ColdData` and `PooledEventData` |
| `EventPool` | `pooled_event_manager.dfy` | `PooledEventManager` |
| `PooledEvents` | `pooled_event.dfy` | `PooledEvent` |
| `EventScenarios` | `event_scenarios.dfy` | whole event lifecycles |
| `PooledObjects` | `pooled_object.dfy` | `PooledObject` |
| `PoolRegistries` | `pool_registry.dfy` | `PoolRegistry` |
| `ObjectPool` | `object_pool_manager.dfy` | `ObjectPoolManager` |

`Wrappers` and `Ranges` are shared helpers.

## Behaviour worth noting

- **No resume cursor.** Sequence and Selector keep no cursor: their
  `foreach` starts at the first child on every tick, even when a later
  child returned Running on the previous tick (`TreeFacts.NoResumeIndex`).
- **Parallel short-circuits.** `UpdateAnd` returns at the first Failure and
  `UpdateOr` at the first Success, so the children after it are not ticked
  that frame.
- **No fault isolation in `Node.Update`.** An exception from `OnUpdate`
  propagates: `Node.Update` has no try/catch. The only exception handling
  is in the `ColdData` dispatch closures, which log a callback's exception
  and go on (`Cold.DispatchCallsOnce`, `PooledEvents.InvokeContainsExceptions`).
- **`GetChildren`.** `ResetFlags` calls `node.GetChildren()`, which is not
  defined in any of the repository's files. The model reads it as
  `CompositeNode.Children` for a composite and as no children for a leaf
  (`Tree.Children`).
- **The editor-only state is modelled.** The flags and `LastResult` exist
  only under `UNITY_EDITOR`, and so do the used list and the debug counters
  of `ColdData`. The model includes them, because the properties about
  them are the ones the editor views rely on.

## Model

| member | source | states |
|---|---|---|
| Lifecycle.Advance | Assets/BehaviorTree/Scripts/Node.cs:15-47 | after one `Update`, `LastResult` is the verdict and `_started` holds iff the verdict is Running; `UpdatedThisFrame` is set; `EnteredThisFrame` is newly raised iff the node was not started; `ExitedThisFrame` is newly raised iff the verdict is terminal |
| Lifecycle.Hooks | Assets/BehaviorTree/Scripts/Node.cs:15-51 | one `Update` calls OnStart once iff the node was not started, and then first; OnUpdate exactly once; OnEnd once iff the verdict is terminal, and then last |
| Lifecycle.RunStartedIffLastRunning | Assets/BehaviorTree/Scripts/Node.cs:15-47 | after any number of ticks, `_started` holds iff the most recent verdict was Running, and `LastResult` is that verdict |
| Lifecycle.RunHookBalance | Assets/BehaviorTree/Scripts/Node.cs:18-44 | over any run, the OnStart calls minus the OnEnd calls equal the change in `_started`, and OnUpdate runs once per tick |
| Lifecycle.StartEndDifference | Assets/BehaviorTree/Scripts/Node.cs:18-44 | from a fresh node, #OnStart − #OnEnd is 0 or 1, and it is 1 exactly when the node is left mid-run |
| Lifecycle.NeverRunningBracketsEveryTick | Assets/BehaviorTree/Scripts/Node.cs:18-44 | a node that never returns Running gets one OnStart and one OnEnd per tick, and is never left started |
| Lifecycle.RunningRunNotReentered | Assets/BehaviorTree/Scripts/Node.cs:18-44 | a node that keeps returning Running gets at most one OnStart over the whole run, and no OnEnd |
| Tree.NewComposite | Assets/BehaviorTree/Scripts/SequenceNode.cs:5-9 | a composite built from a null `params` array has no children; otherwise it has exactly the given children, in order; a new node is not started |
| Tree.NewLeaf | Assets/BehaviorTree/Scripts/ConditionNode.cs:8-11 | a new leaf is not started and has no children |
| Tree.AddChild | Assets/BehaviorTree/Scripts/SequenceNode.cs:11 | the child is appended after the existing ones, which keep their order |
| Tree.TickUntil | Assets/BehaviorTree/Scripts/SequenceNode.cs:15-20 | the child loop ticks a non-empty prefix of a non-empty child list; every child ticked before the last one has a verdict outside the stop set; the loop ends early only at a verdict in the stop set; the children after the prefix are untouched |
| Tree.SequenceUpdate | Assets/BehaviorTree/Scripts/SequenceNode.cs:13-23 | Success iff every child was ticked and succeeded; otherwise the verdict of the first child that did not succeed; an empty sequence succeeds |
| Tree.SelectorUpdate | Assets/BehaviorTree/Scripts/SelectorNode.cs:13-23 | Failure iff every child was ticked and failed; otherwise the verdict of the first child that did not fail; an empty selector fails |
| Tree.ParallelAndUpdate | Assets/BehaviorTree/Scripts/ParallelNode.cs:37-53 | Failure iff some ticked child failed, and the loop stopped there; Success iff all children were ticked and succeeded; Running iff no child failed and some child is running |
| Tree.ParallelOrUpdate | Assets/BehaviorTree/Scripts/ParallelNode.cs:60-71 | never Failure; Success iff some ticked child succeeded, and the loop stopped there; Running only after every child was ticked |
| TreeFacts.TickUntilTicksPrefix | Assets/BehaviorTree/Scripts/SequenceNode.cs:15-20 | the loop ticks children 0..k−1, each exactly once and in order, with the results recorded in place; children k.. are unchanged |
| TreeFacts.TickUntilTrace | Assets/BehaviorTree/Scripts/SequenceNode.cs:15-20 | the events of the loop are the events of the ticked children, concatenated in child order |
| TreeFacts.CompositeTick | Assets/BehaviorTree/Scripts/Node.cs:15-47 | a composite's tick puts the ticked children's results into a prefix of its child list and leaves the rest as they were; its own state is the lifecycle step for its verdict |
| TreeFacts.SequenceVerdict | Assets/BehaviorTree/Scripts/SequenceNode.cs:13-23 | the Sequence verdict in terms of the children actually ticked, both directions |
| TreeFacts.SelectorVerdict | Assets/BehaviorTree/Scripts/SelectorNode.cs:13-23 | the Selector verdict in terms of the children actually ticked, both directions |
| TreeFacts.ParallelAndVerdict | Assets/BehaviorTree/Scripts/ParallelNode.cs:21-53 | the And-policy verdict in terms of the children ticked: Failure iff one failed, Success iff all succeeded, else Running |
| TreeFacts.ParallelOrVerdict | Assets/BehaviorTree/Scripts/ParallelNode.cs:21-71 | the Or-policy verdict: Success iff a child succeeded, else Running after all children were ticked; never Failure |
| TreeFacts.CompositeTrace | Assets/BehaviorTree/Scripts/Node.cs:15-47 | a composite's events: its own OnStart (if not started) and update, then the ticked children's events in order, then its own OnEnd on a terminal verdict |
| TreeFacts.TickLifecycle | Assets/BehaviorTree/Scripts/Node.cs:15-47 | any node's tick changes its own state exactly as `Node.Update` does; its trace opens with OnStart iff it was not started and closes with OnEnd iff the verdict is terminal |
| TreeFacts.TickHooks | Assets/BehaviorTree/Scripts/Node.cs:15-47 | a tick's events are the node's own opening events, then those of its `OnUpdate`, then its closing event; the node's own events are exactly the hooks `Node.Update` runs for that verdict, in order |
| TreeFacts.OwnEventsAreHooks | Assets/BehaviorTree/Scripts/Node.cs:18-44 | OnStart, the update step and OnEnd map one-to-one and in order onto the node's own `Started`, `Updated` and `Ended` events |
| TreeFacts.TickAllFollowsRun | Assets/BehaviorTree/Scripts/Node.cs:15-47 | a tree node ticked any number of times keeps its id; its state is the lifecycle run over the verdicts it returned, and its own events are the hooks of that run |
| TreeFacts.TickAllBalance | Assets/BehaviorTree/Scripts/Node.cs:18-44 | a tree node that starts out not started and is ticked any number of times has 0 or 1 more OnStart events than OnEnd events, 1 exactly when it is left mid-run, and one update event per tick |
| TreeFacts.TickKeepsIds | Assets/BehaviorTree/Scripts/CompositeNode.cs:7-8 | a tick keeps every node's id in place, so a tree with unique ids keeps them unique |
| TreeFacts.TickKeepsShape | Assets/BehaviorTree/Scripts/CompositeNode.cs:7-8 | ticking never adds, removes or reorders children anywhere in the tree; only lifecycle state changes |
| TreeFacts.NoResumeIndex | Assets/BehaviorTree/Scripts/SequenceNode.cs:13-23 | a composite's verdict and its children's results do not depend on the composite's own started or last-result state: every tick starts over at the first child |
| TreeFacts.SkippedChildKeepsRun | Assets/BehaviorTree/Scripts/Node.cs:18-25 | a started child that the loop skips is left exactly as it was, so its next tick begins without OnStart |
| TreeFacts.ConditionLeaf | Assets/BehaviorTree/Scripts/ConditionNode.cs:13-16 | Success iff the condition holds and Failure iff it does not; the condition is called once per tick; the leaf is never left started, so a fresh one gets OnStart, update, call, OnEnd |
| TreeFacts.ActionLeaf | Assets/BehaviorTree/Scripts/ActionNode.cs:13-16 | the verdict is the action's result, the action is called once, and the leaf stays started iff the action returned Running |
| TreeFacts.ActionRunningResumes | Assets/BehaviorTree/Scripts/Node.cs:18-44 | an action that returned Running gets no OnStart on its next tick |
| TreeFacts.FailLeaf | Assets/BehaviorTree/Scripts/FailNode.cs:5-8 | Failure in every state, environment and frame; the leaf is never left started and calls nothing |
| TreeFacts.FailOnlyChild | Assets/BehaviorTree/Scripts/FailNode.cs:5-8 | a lone `FailNode` makes a Sequence, a Selector or an And-parallel fail |
| Controller.ResetFlagsSpec | Assets/BehaviorTree/Scripts/BehaviorTreeController.cs:32-44 | after `ResetFlags`, no node anywhere in the tree has a flag set; the tree's shape and every node's started flag and last result are unchanged |
| Controller.TickRaisesFlags | Assets/BehaviorTree/Scripts/Node.cs:57-60 | after a tick, a node's flag is set iff it was set before or the tick emitted the matching event for that node (OnStart for Entered, update for Updated, OnEnd for Exited) |
| Controller.CreateTree | Assets/BehaviorTree/Scripts/BehaviorTreeController.cs:21-24 | the given node becomes the root |
| Controller.Update | Assets/BehaviorTree/Scripts/BehaviorTreeController.cs:10-19 | without a root a frame changes nothing and emits nothing; with one the root keeps its id and is ticked once: its own state is one lifecycle step from the cleared state for the verdict it returned, its flags are exactly the marks of the frame's events, the tree keeps its shape, and the frame opens with the root's OnStart or OnUpdate event and, on a terminal verdict, closes with its OnEnd |
| Controller.ControllerFrame | Assets/BehaviorTree/Scripts/BehaviorTreeController.cs:10-19 | after a frame, each flag is set on exactly the nodes for which this frame's single root tick emitted the matching event; the root is ticked first and the tree keeps its shape |
| Cold.ResetForBind | Assets/Utils/CustomEvent/Runtime/ColdData.cs:27-38 | the record has no binding and zeroed debug counters, and keeps its `ManagedData` |
| Cold.Clear | Assets/Utils/CustomEvent/Runtime/ColdData.cs:39-49 | as `ResetForBind`, and also drops `ManagedData.target`; the back-link is kept |
| Cold.ClearAbsorbsReset | Assets/Utils/CustomEvent/Runtime/ColdData.cs:39-49 | clearing after a reset equals clearing, clearing is idempotent, and the result depends only on the back-link |
| Cold.InstallPlain | Assets/Utils/CustomEvent/Runtime/ColdData.cs:63-82 | the plain bind stores the callback and target and installs the plain dispatcher in place of the GameObject one |
| Cold.InstallWithObject | Assets/Utils/CustomEvent/Runtime/ColdData.cs:90-109 | the GameObject bind stores the callback and target and installs the GameObject dispatcher in place of the plain one |
| Cold.Set | Assets/Utils/CustomEvent/Runtime/ColdData.cs:57-110 | a null action changes nothing; otherwise a null back-link fails the assertion; otherwise only the linked record changes, and it gets the binding and exactly one dispatcher |
| Cold.Dispatch | Assets/Utils/CustomEvent/Runtime/ColdData.cs:67-82 | a dispatch calls the stored callback with the stored target and the argument; a throw adds one logged exception with the `target` context |
| Cold.Calls | Assets/Utils/CustomEvent/Runtime/ColdData.cs:74-81 | the number of callback calls in a dispatch log is at most its length, and zero exactly when the log holds only logged exceptions |
| Cold.CallsConcat | Assets/Utils/CustomEvent/Runtime/ColdData.cs:74-81 | the calls of two logs appended are the calls of each, added up |
| Cold.DispatchCallsOnce | Assets/Utils/CustomEvent/Runtime/ColdData.cs:74-81 | a dispatch calls the callback exactly once whether or not it throws, and a throw only adds the log entry after the call |
| EventPool.Init | Assets/Utils/CustomEvent/Runtime/PooledEventManager.cs:48-60 | 128 unbound records, each linked to itself, all on the free list in order, none used |
| EventPool.InitSound | Assets/Utils/CustomEvent/Runtime/PooledEventManager.cs:48-60 | the initial manager is sound: every record is free exactly once and unbound |
| EventPool.Expand | Assets/Utils/CustomEvent/Runtime/PooledEventManager.cs:64-70 | the capacity doubles and that many new unlinked records are appended to the free list; the old records are untouched |
| EventPool.GetCold | Assets/Utils/CustomEvent/Runtime/PooledEventManager.cs:62-79 | the last free record is popped and appended to the used list; an empty free list is first expanded, and the new record handed out is the last one added |
| EventPool.GetColdValid | Assets/Utils/CustomEvent/Runtime/PooledEventManager.cs:62-79 | `GetCold` keeps the manager's invariant, and the record it hands out from a cleared free list is unbound |
| EventPool.GetColdPartitioned | Assets/Utils/CustomEvent/Runtime/PooledEventManager.cs:72-77 | the record taken leaves the free list and joins the used list; every record stays in exactly one of the two |
| EventPool.RemoveFirst | Assets/Utils/CustomEvent/Runtime/PooledEventManager.cs:86 | `List.Remove` removes one occurrence if there is one, and otherwise leaves the list as it is |
| EventPool.Recycled | Assets/Utils/CustomEvent/Runtime/PooledEventManager.cs:83-84 | a released record is unbound, has zeroed counters and no target, and links to itself again |
| EventPool.ReleaseCold | Assets/Utils/CustomEvent/Runtime/PooledEventManager.cs:81-89 | only the released record changes; it is pushed on the free list and one occurrence leaves the used list |
| EventPool.ReleaseColdValid | Assets/Utils/CustomEvent/Runtime/PooledEventManager.cs:81-89 | `ReleaseCold` keeps the manager's invariant and keeps the free list unbound |
| EventPool.ReleaseKeepsSound | Assets/Utils/CustomEvent/Runtime/PooledEventManager.cs:81-89 | releasing a used record keeps the manager sound; the record becomes free and is no longer used |
| EventPool.ReleaseFreeRecordTwice | Assets/Utils/CustomEvent/Runtime/PooledEventManager.cs:81-89 | nothing stops a free record being released again: it then appears twice on the free list, and the partition is lost |
| EventPool.ReleaseThenGetCold | Assets/Utils/CustomEvent/Runtime/PooledEventManager.cs:62-89 | the free list is a stack: the record just released is the next one handed out, and the free list is restored |
| EventPool.CapacityDoubles | Assets/Utils/CustomEvent/Runtime/PooledEventManager.cs:62-70 | the capacity stays the same or doubles, and it is always 128 times a power of two |
| PooledEvents.Create | Assets/Utils/CustomEvent/Runtime/PooledEvent.cs:16-21 | the handle refers to the record taken from the free list, which links to itself and is unbound when the free list was |
| PooledEvents.CreateSound | Assets/Utils/CustomEvent/Runtime/PooledEvent.cs:16-21 | `Create` keeps a sound manager sound and its handle is live |
| PooledEvents.Dispose | Assets/Utils/CustomEvent/Runtime/PooledEvent.cs:23-28 | a handle without a record changes nothing; otherwise its record is pushed back unbound; the handle is invalid afterwards |
| PooledEvents.DisposeKeepsSound | Assets/Utils/CustomEvent/Runtime/PooledEvent.cs:23-28 | disposing a live handle keeps the manager sound and takes its record out of use |
| PooledEvents.DisposeTwice | Assets/Utils/CustomEvent/Runtime/PooledEvent.cs:23-28 | disposing the same handle value again does nothing |
| PooledEvents.Bind | Assets/Utils/CustomEvent/Runtime/PooledEvent.cs:37-57 | an invalid handle fails `AssertValid`; an unlinked record fails `Set`'s assertion iff an action is given; otherwise only the handle's record changes: it is reset, then bound to the given target, action and dispatcher, and the same handle is returned |
| PooledEvents.BindKeepsSound | Assets/Utils/CustomEvent/Runtime/PooledEvent.cs:37-57 | binding through a live handle keeps the manager sound |
| PooledEvents.BindReplaces | Assets/Utils/CustomEvent/Runtime/PooledEvent.cs:37-57 | a second bind fully replaces the first: binding twice gives the same result as binding only the second time |
| PooledEvents.Invoke | Assets/Utils/CustomEvent/Runtime/PooledEvent.cs:59-67 | a handle without a record does nothing; otherwise the stored callback is called once iff the plain dispatcher is installed, and the invoke count goes up only then; the pool lists are unchanged |
| PooledEvents.InvokeEvent | Assets/Utils/CustomEvent/Runtime/PooledEvent.cs:69-80 | as `Invoke` for the GameObject dispatcher, which passes `go`; the last invoke object is recorded whether or not anything is bound |
| PooledEvents.InvokeContainsExceptions | Assets/Utils/CustomEvent/Runtime/PooledEvent.cs:59-80 | a throwing callback leaves the same state as a returning one, and its log only gains entries after the call |
| PooledEvents.BindPlainThenInvoke | Assets/Utils/CustomEvent/Runtime/PooledEvent.cs:37-67 | after a plain bind, `Invoke` calls the action once on the target, and `InvokeEvent` calls nothing |
| PooledEvents.BindWithObjectThenInvokeEvent | Assets/Utils/CustomEvent/Runtime/PooledEvent.cs:48-80 | after a GameObject bind, `InvokeEvent(go)` calls the action once on the target with `go`, and `Invoke` calls nothing |
| EventScenarios.InvokeWithoutRecordDoesNothing | Assets/Utils/CustomEvent/Test/PlayMode/PooledEventTests.cs:51-65 | a default handle, or a handle after create, bind and dispose, invokes nothing through either entry point |
| EventScenarios.CreateBindInvoke | Assets/Utils/CustomEvent/Test/PlayMode/PooledEventTests.cs:18-31 | create, plain bind, invoke calls the action exactly once, on the receiver |
| EventScenarios.CreateBindInvokeEvent | Assets/Utils/CustomEvent/Test/PlayMode/PooledEventTests.cs:33-49 | create, GameObject bind, `InvokeEvent(go)` calls the action exactly once, on the receiver, with `go` |
| EventScenarios.ReuseDoesNotLeakCallback | Assets/Utils/CustomEvent/Test/PlayMode/PooledEventTests.cs:67-88 | a disposed record comes back unbound on the next create, and after a new bind only the new action is called, once |
| EventScenarios.CopyDisposedTwiceDoubleFrees | Assets/Utils/CustomEvent/Runtime/PooledEvent.cs:23-28 | disposing a handle leaves a struct copy of it valid, and disposing the copy puts the record on the free list twice |
| EventScenarios.CopyDisposedTwiceSharesRecord | Assets/Utils/CustomEvent/Runtime/PooledEventManager.cs:62-89 | after such a double dispose, the next two creates return handles on the same record |
| EventScenarios.TwoCreatesShareTop | Assets/Utils/CustomEvent/Runtime/PooledEventManager.cs:72-74 | a record that is twice on top of the free list is handed out by two creates in a row |
| EventScenarios.StaleCopyBindLeaksIntoNextEvent | Assets/Utils/CustomEvent/Runtime/PooledEvent.cs:37-46 | a copy kept past dispose can still bind the freed record; the next create hands that record out already bound, and its first invoke calls the stale action |
| PooledObjects.Init | Assets/Utils/ObjectPool/Runtime/PooledObject.cs:18-23 | an initialised object is keyed to the prefab, in its pool and alive, whatever it was before |
| PooledObjects.MarkInUse | Assets/Utils/ObjectPool/Runtime/PooledObject.cs:25-28 | the object leaves its pool; its key and destroyed state are kept |
| PooledObjects.MarkReleased | Assets/Utils/ObjectPool/Runtime/PooledObject.cs:30-33 | the object is back in its pool; its key and destroyed state are kept |
| PooledObjects.OnDestroy | Assets/Utils/ObjectPool/Runtime/PooledObject.cs:13-16 | the object is destroyed; its key and in-pool state are kept |
| PooledObjects.MarksIdempotent | Assets/Utils/ObjectPool/Runtime/PooledObject.cs:25-33 | each mark is idempotent, and each mark overrides the other |
| PooledObjects.OnlyInitClearsDestroyed | Assets/Utils/ObjectPool/Runtime/PooledObject.cs:13-23 | once destroyed, an object stays destroyed through any sequence of operations without `Init` |
| PooledObjects.PoolKeyKept | Assets/Utils/ObjectPool/Runtime/PooledObject.cs:18-40 | only `Init` changes the pool key |
| PoolRegistries.BuildTable | Assets/Utils/ObjectPool/Runtime/PoolRegistry.cs:19-30 | every table entry is keyed by its own prefab |
| PoolRegistries.BuildTableFirstWins | Assets/Utils/ObjectPool/Runtime/PoolRegistry.cs:14-33 | the table holds exactly the prefabs some entry names, each mapped to the first entry that names it |
| PoolRegistries.InitTable | Assets/Utils/ObjectPool/Runtime/PoolRegistry.cs:14-33 | the table is built from the entries on the first call, and later calls change nothing |
| PoolRegistries.TryGetEntry | Assets/Utils/ObjectPool/Runtime/PoolRegistry.cs:35-46 | the table is built first; a null prefab is never found and gives the default entry; otherwise it is found iff it is in the table, with that entry, and a miss gives the default entry |
| PoolRegistries.FirstLookup | Assets/Utils/ObjectPool/Runtime/PoolRegistry.cs:35-46 | on a freshly loaded registry, a prefab is found iff some entry names it, and the entry found is the first one that does |
| PoolRegistries.BuiltOnce | Assets/Utils/ObjectPool/Runtime/PoolRegistry.cs:14-16 | after the first lookup, a later lookup leaves the registry unchanged |
| PoolRegistries.EditsAfterInitIgnored | Assets/Utils/ObjectPool/Runtime/PoolRegistry.cs:14-16 | editing the entry list after the first lookup changes no later lookup |
| ObjectPool.EmptyValid | Assets/Utils/ObjectPool/Runtime/ObjectPoolManager.cs:29-60 | the manager as it wakes satisfies the invariant with or without a registry, and so does the manager left by registering the registry's entries in `Awake` |
| ObjectPool.Preloaded | Assets/Utils/ObjectPool/Runtime/ObjectPoolManager.cs:113-118 | the preload creates exactly `n` instances with consecutive fresh ids, each initialised for the prefab |
| ObjectPool.Register | Assets/Utils/ObjectPool/Runtime/ObjectPoolManager.cs:82-119 | a null or already registered prefab changes nothing; otherwise the new stack holds `max(preloadCount, 0)` fresh instances in creation order, all in the pool and keyed to the prefab; existing instances are untouched |
| ObjectPool.RegisterValid | Assets/Utils/ObjectPool/Runtime/ObjectPoolManager.cs:82-119 | registration keeps the invariant: every stacked instance is known and in its pool, and no instance is stacked twice |
| ObjectPool.CreateInstance | Assets/Utils/ObjectPool/Runtime/ObjectPoolManager.cs:266-281 | a new instance gets an id no existing instance has, initialised for the prefab, and is on no stack |
| ObjectPool.PopLive | Assets/Utils/ObjectPool/Runtime/ObjectPoolManager.cs:191-200 | the loop stops at the topmost live entry, leaves the entries below it, and discards only dead entries above it; if it finds none, the stack is emptied and every entry was dead |
| ObjectPool.EnsurePool | Assets/Utils/ObjectPool/Runtime/ObjectPoolManager.cs:171-189 | afterwards the key has a pool; an existing pool is used as is; otherwise the key is registered with the registry entry's preload count if the registry has one, else with none |
| ObjectPool.EnsurePoolValid | Assets/Utils/ObjectPool/Runtime/ObjectPoolManager.cs:171-189 | the registration `Get` may perform keeps the invariant |
| ObjectPool.Take | Assets/Utils/ObjectPool/Runtime/ObjectPoolManager.cs:191-203 | with a live instance on the stack, the topmost one is handed out and marked in use, and only what was above it is dropped; with none, the stack is emptied and a fresh instance is made and handed out in use |
| ObjectPool.Get | Assets/Utils/ObjectPool/Runtime/ObjectPoolManager.cs:167-217 | a null key yields null and changes nothing; otherwise the key has a pool afterwards, and the instance returned is alive and out of its pool; it is a known instance whose in-pool mark alone changed, or a new one; no other instance changes |
| ObjectPool.TakeHandsOut | Assets/Utils/ObjectPool/Runtime/ObjectPoolManager.cs:191-203 | taking from a pool always yields an alive, in-use instance, either one from the stack or the next fresh id; no other instance changes |
| ObjectPool.Release | Assets/Utils/ObjectPool/Runtime/ObjectPoolManager.cs:238-261 | a null key, a null or destroyed instance, an unregistered key or an instance already in its pool changes nothing; otherwise the instance is marked in the pool and pushed on the key's stack, and nothing else changes |
| ObjectPool.ReturnToPool | Assets/Utils/ObjectPool/Runtime/PooledObject.cs:35-40 | an object in its pool, a destroyed one, or one whose prefab has no pool stays put; otherwise it is pushed on top of its own prefab's stack and marked in the pool, and no other instance changes |
| ObjectPool.RegisterAll | Assets/Utils/ObjectPool/Runtime/ObjectPoolManager.cs:44-54 | afterwards a prefab has a pool iff it had one or some entry names it, and the pools that existed are unchanged |
| ObjectPool.RegisterFromRegistry | Assets/Utils/ObjectPool/Runtime/ObjectPoolManager.cs:38-60 | without a registry nothing happens; otherwise a prefab has a pool afterwards iff it had one or some entry names it, existing pools are kept, each new pool holds the preload count of the first entry naming its prefab, and the invariant is kept |
| ObjectPool.DestroyInstance | Assets/Utils/ObjectPool/Runtime/PooledObject.cs:13-16 | destroying an instance marks only it destroyed; the stacks still hold it |
| ObjectPool.DestroyValid | Assets/Utils/ObjectPool/Runtime/PooledObject.cs:13-16 | destruction keeps the invariant |
| ObjectPool.GetValid | Assets/Utils/ObjectPool/Runtime/ObjectPoolManager.cs:167-217 | `Get` keeps the invariant |
| ObjectPool.TakeValid | Assets/Utils/ObjectPool/Runtime/ObjectPoolManager.cs:191-203 | handing out an instance keeps the invariant |
| ObjectPool.TakeLiveValid | Assets/Utils/ObjectPool/Runtime/ObjectPoolManager.cs:191-200 | handing out the topmost live instance keeps the invariant: it leaves its stack and is on no other |
| ObjectPool.TakeMadeValid | Assets/Utils/ObjectPool/Runtime/ObjectPoolManager.cs:202-203 | emptying the stack and handing out a new instance keeps the invariant |
| ObjectPool.ReleaseValid | Assets/Utils/ObjectPool/Runtime/ObjectPoolManager.cs:238-261 | `Release` keeps the invariant: an instance out of its pool is on no stack, so pushing it does not duplicate it |
| ObjectPool.ReleaseTwice | Assets/Utils/ObjectPool/Runtime/ObjectPoolManager.cs:251-252 | releasing twice equals releasing once, because the second call finds the instance in its pool |
| ObjectPool.GetThenReturnToPool | Assets/Utils/ObjectPool/Runtime/AutoReleaseManager.cs:33-36 | when a pool holds only instances keyed to it, whatever `Get` hands out is put back on top of that pool's stack by `ReturnToPool`, in the pool, and the next `Get` hands it out again, leaving the manager as the first `Get` did |
| ObjectPool.GetThenRelease | Assets/Utils/ObjectPool/Runtime/ObjectPoolManager.cs:167-261 | whatever `Get` hands out, releasing it to the same key puts it on top of that key's stack, in the pool |
| ObjectPool.ReleaseThenGet | Assets/Utils/ObjectPool/Runtime/ObjectPoolManager.cs:191-261 | the stacks are LIFO: getting right after releasing a live in-use instance hands that instance back and restores the manager exactly |
| ObjectPool.GetPopsTopLive | Assets/Utils/ObjectPool/Runtime/ObjectPoolManager.cs:191-200 | `Get` hands out the topmost live instance, drops the destroyed ones above it, and creates nothing |
| ObjectPool.GetMakesWhenExhausted | Assets/Utils/ObjectPool/Runtime/ObjectPoolManager.cs:202-203 | when every stacked instance is destroyed, `Get` empties the stack and hands out a new instance keyed to the prefab |
| ObjectPool.DestroyedNotReturned | Assets/Utils/ObjectPool/Runtime/ObjectPoolManager.cs:192-200 | a destroyed instance is never handed out again |
| ObjectPool.GetAutoRegisters | Assets/Utils/ObjectPool/Runtime/ObjectPoolManager.cs:179-188 | a key unknown to the manager, with no registry, gets an empty pool, and the instance handed out is new |
| ObjectPool.GetRegistersFromEntry | Assets/Utils/ObjectPool/Runtime/ObjectPoolManager.cs:171-203 | a key unknown to the manager whose registry entry preloads `n > 0` instances gets `n` new instances; the last of them is handed out and the other `n − 1` stay stacked |
| ObjectPool.EnsurePoolFromEntry | Assets/Utils/ObjectPool/Runtime/ObjectPoolManager.cs:173-177 | registering from such an entry makes a stack of `n` fresh ids, whose top is alive |
| ObjectPool.RegisterAllValid | Assets/Utils/ObjectPool/Runtime/ObjectPoolManager.cs:44-54 | registering a list of entries keeps the invariant |
| ObjectPool.RegisterAllFirstCount | Assets/Utils/ObjectPool/Runtime/ObjectPoolManager.cs:44-54 | each prefab registered from the list is preloaded with the count of the first entry naming it; later duplicates are ignored |
| ObjectPool.RegistryPoolsAgree | Assets/Utils/ObjectPool/Runtime/ObjectPoolManager.cs:38-60 | on waking, a prefab has a pool iff the registry's lookup finds it, and the pool's size is the preload count of the entry found |

## Left out

- Editor tooling, gizmos and the demo scenes: `BehaviorTreeViewer`, `DrawGizmos`, the custom inspectors and the demo leaves and AI nodes. They only read the modelled state or use the modelled API.
- `WaitNode`, `Blackboard` and `EnemyManager`: they are not part of the evaluator core. The leaf functions a tree wraps are opaque, and the model reads them from an environment keyed by leaf id and frame.
- Older copies of the event system under `Assets/CustomEvent`: they are earlier revisions of the runtime files under `Assets/Utils/CustomEvent/Runtime`.
- Exceptions from a node's `OnUpdate`: the code does not catch them, so they propagate. The model's leaf functions always return.
- Re-entrancy: a callback that creates, binds, invokes or disposes events while it is being dispatched is not modelled. A callback is one opaque call that may throw.
- `SetupDebug`: the stack-trace capture, `DebugTargetObject`, `DebugBindFile` and `DebugBindLine` are editor diagnostics read by no runtime path.
- `Cold.Set`: the `as T` casts in the dispatch closures are not modelled. The binding's own type always matches, so the stored target is passed through unchanged.
- PooledEvents.Invoke: `DebugInvokeCount` is an unbounded counter here, whereas the source uses a 32-bit `int` that wraps after 2^31 invokes.
- The singleton glue: `PooledEventManager.Instance`, `ObjectPoolManager.Instance`, `CreateInstance` of the managers, `HasInstance` and `ResetStatic`. The manager is a value passed to every operation, and `HasInstance` is taken to be true.
- The play-mode check in `PooledEventManager.CreateInstance`: it throws outside play mode. The model only describes play mode.
- Auto-release: `AutoReleaseManager`, `AutoReleaseObject`, the timer start in `Get` and the timer stop in `Release`, `entryTable`, and `PoolEntry.UseAutoRelease` / `AutoReleaseDelay`. The timers depend on the frame clock, so when an instance expires is not modelled. What expiry does to the pools is: `AutoReleaseManager.Update` calls `ReturnToPool` on the expired instance, which is exactly `ObjectPool.ReturnToPool`.
- `SetActive`, transforms, the `Get` overloads taking a position, rotation or transform, and `SetEditorPoolParent`: they only move or show an instance.
- `Release(GameObject, GameObject)`: it looks up the `PooledObject` component with `TryGetComponent`. The model's instances are their components, so only `Release(GameObject, PooledObject)` is modelled.
- ObjectPool.Release: requires the instance to be one the manager created. A `PooledObject` component added by hand to an object the manager never made is not modelled.
- ObjectPool.Live: Unity's fake-null rule (a destroyed object compares equal to null) is modelled by the destroyed flag. A stack entry counts as null when it is not a known instance or is destroyed, and `Release` treats a destroyed instance as null.
- Tree shape: the model's tree is a value, so every child is distinct, non-null and acyclic. The source accepts any `Node` reference in the `params` constructors and in `AddChild`. The same node twice or under two parents (one shared `_started`, ticked twice in a frame), a cycle (unbounded recursion) or a `null` child (a `NullReferenceException` at `child.Update()`) is not modelled. Leaves are told apart by id, and the properties about environments, traces and editor flag sets describe a source tree when its ids are unique (`Tree.UniqueIds`, kept by every tick, `TreeFacts.TickKeepsIds`).
- The third arm of `ParallelNode.OnUpdate`'s `switch` returns Running for a policy outside the enum. `Tree.Policy` has only the two members, so no value reaches that arm.
- Logging: the duplicate-registration and auto-registration warnings and the duplicate-prefab warning of `PoolRegistry`.

=== FILE: cold_data.dfy ===
/** `ColdData`, the heap record behind every `PooledEvent` handle, and the
    `PooledEventData` struct embedded in it. Engine objects and delegates are
    opaque ids; a `ColdData` reference is the index of the record in the
    manager's slot table, so the "heap" is a `seq<ColdData>` that the
    operations thread through. */
module Cold {
  import opened Wrappers

  /** A bound delegate (`Callback`). Two ids are equal iff the delegates are. */
  type CallbackId = nat

  /** Any other engine object: a callback target, a GameObject. */
  type ObjectId = nat

  /** A `ColdData` instance: its index in the slot table. */
  type SlotRef = nat

  /** `PooledEventData`: the (never assigned) `target` used as the log
      context, and the back-link `cold` to the record that holds the binding. */
  datatype PooledEventData = PooledEventData(target: Option<ObjectId>, cold: Option<SlotRef>)

  /** The fields of `ColdData` the runtime reads. `dispatch` and `dispatchObj`
      say whether the plain or the GameObject dispatch closure is installed;
      the closure bodies are `Dispatch` below. */
  datatype ColdData = ColdData(
    callback: Option<CallbackId>,
    callbackTarget: Option<ObjectId>,
    dispatch: bool,
    dispatchObj: bool,
    managed: PooledEventData,
    debugInvokeObj: Option<ObjectId>,
    debugInvokeCount: nat)

  /** `new ColdData()`: every reference null, every counter zero. */
  const Blank: ColdData :=
    ColdData(None, None, false, false, PooledEventData(None, None), None, 0)

  /** Nothing is bound: no callback, no target, no dispatcher. */
  predicate Unbound(c: ColdData) {
    c.callback.None? && c.callbackTarget.None? && !c.dispatch && !c.dispatchObj
  }

  /** The debug counters `ResetForBind` zeroes. */
  predicate DebugReset(c: ColdData) {
    c.debugInvokeObj.None? && c.debugInvokeCount == 0
  }

  /** `ResetForBind`: drops the binding and the debug counters, keeps `ManagedData`. */
  function ResetForBind(c: ColdData): (r: ColdData)
    ensures Unbound(r) && DebugReset(r)
    ensures r.managed == c.managed
  {
    c.(callback := None, callbackTarget := None, dispatch := false, dispatchObj := false,
       debugInvokeObj := None, debugInvokeCount := 0)
  }

  /** `Clear`: `ResetForBind` and also drops `ManagedData.target`; the
      `ManagedData.cold` back-link is left as it was. */
  function Clear(c: ColdData): (r: ColdData)
    ensures Unbound(r) && DebugReset(r)
    ensures r.managed.target.None? && r.managed.cold == c.managed.cold
  {
    var reset := ResetForBind(c);
    reset.(managed := reset.managed.(target := None))
  }

  /** Clearing after a reset is the same as clearing, and clearing is idempotent:
      both leave a record that depends only on the back-link. */
  lemma ClearAbsorbsReset(c: ColdData, d: ColdData)
    requires c.managed.cold == d.managed.cold
    ensures Clear(ResetForBind(c)) == Clear(c) == Clear(Clear(d))
  {
  }

  /** The binding the plain `Set` writes into the linked record: the plain
      dispatcher replaces any GameObject one. */
  function InstallPlain(c: ColdData, target: Option<ObjectId>, action: CallbackId): (r: ColdData)
    ensures r.dispatch && !r.dispatchObj
    ensures r.callback == Some(action) && r.callbackTarget == target
    ensures r.managed == c.managed && r.debugInvokeObj == c.debugInvokeObj
    ensures r.debugInvokeCount == c.debugInvokeCount
  {
    c.(dispatchObj := false, callbackTarget := target, callback := Some(action), dispatch := true)
  }

  /** The binding the GameObject overload of `Set` writes: the reverse of `InstallPlain`. */
  function InstallWithObject(c: ColdData, target: Option<ObjectId>, action: CallbackId): (r: ColdData)
    ensures !r.dispatch && r.dispatchObj
    ensures r.callback == Some(action) && r.callbackTarget == target
    ensures r.managed == c.managed && r.debugInvokeObj == c.debugInvokeObj
    ensures r.debugInvokeCount == c.debugInvokeCount
  {
    c.(dispatch := false, callbackTarget := target, callback := Some(action), dispatchObj := true)
  }

  /** Which `Set` overload, i.e. which dispatcher a bind installs. */
  datatype Overload = Plain | WithObject

  /** The assertion `Set` makes on the back-link. */
  datatype SetError = NullCold

  function Install(c: ColdData, kind: Overload, target: Option<ObjectId>, action: CallbackId): ColdData {
    match kind
    case Plain => InstallPlain(c, target, action)
    case WithObject => InstallWithObject(c, target, action)
  }

  /** The references in a slot table are all in range. */
  predicate InTable(slots: seq<ColdData>, data: PooledEventData) {
    data.cold.Some? ==> data.cold.value < |slots|
  }

  /** `PooledEventData.Set` (both overloads) called on `data`: a null action
      changes nothing; otherwise a null back-link fails the assertion, and a
      good one gets the new binding written into the record it points to,
      leaving every other record alone. */
  function Set(slots: seq<ColdData>, data: PooledEventData, kind: Overload,
               target: Option<ObjectId>, action: Option<CallbackId>): (r: Result<seq<ColdData>, SetError>)
    requires InTable(slots, data)
    ensures action.None? ==> r == Ok(slots)
    ensures action.Some? && data.cold.None? ==> r == Err(NullCold)
    ensures r.Ok? ==> |r.value| == |slots|
    ensures r.Ok? ==> forall i :: 0 <= i < |slots| && Some(i) != data.cold ==> r.value[i] == slots[i]
    ensures action.Some? && data.cold.Some? ==> (
      r.Ok? &&
      var b := r.value[data.cold.value];
      b.callback == action && b.callbackTarget == target &&
      b.dispatch == (kind == Plain) && b.dispatchObj == (kind == WithObject) &&
      b.managed == slots[data.cold.value].managed)
  {
    if action.None? then Ok(slots)
    else if data.cold.None? then Err(NullCold)
    else
      var i := data.cold.value;
      Ok(slots[i := Install(slots[i], kind, target, action.value)])
  }

  /** The argument list a dispatcher passes on: none for the plain one, the
      GameObject (possibly null) for the other. */
  datatype Argument = NoArgument | GameObject(go: Option<ObjectId>)

  /** What a dispatch does that can be observed: the callback is called, and
      an exception it throws is logged with the `ManagedData.target` context. */
  datatype Outcome =
    | Called(callback: CallbackId, target: Option<ObjectId>, arg: Argument)
    | ExceptionLogged(context: Option<ObjectId>)

  /** The body of either dispatch closure, given the `PooledEventData` `t` it
      receives and the record `linked` that `t.cold` points to. The callback
      is opaque; `throws` says whether it throws. The closure asserts that a
      callback is stored, so the caller provides one. */
  function Dispatch(t: PooledEventData, linked: ColdData, arg: Argument, throws: bool): (log: seq<Outcome>)
    requires linked.callback.Some?
    ensures |log| == (if throws then 2 else 1)
    ensures log[0] == Called(linked.callback.value, linked.callbackTarget, arg)
    ensures throws ==> log[1] == ExceptionLogged(t.target)
  {
    [Called(linked.callback.value, linked.callbackTarget, arg)]
      + (if throws then [ExceptionLogged(t.target)] else [])
  }

  /** The number of callback invocations in a log: none exactly when no
      entry is a call. */
  function Calls(log: seq<Outcome>): (n: nat)
    ensures n <= |log|
    ensures n == 0 <==> forall i :: 0 <= i < |log| ==> !log[i].Called?
    decreases |log|
  {
    if log == [] then 0
    else
      assert forall i :: 1 <= i < |log| ==> log[i] == log[1..][i - 1];
      (if log[0].Called? then 1 else 0) + Calls(log[1..])
  }

  /** Counting calls distributes over concatenated logs. */
  lemma {:induction false} CallsConcat(a: seq<Outcome>, b: seq<Outcome>)
    ensures Calls(a + b) == Calls(a) + Calls(b)
    decreases |a|
  {
    if a == [] {
      assert a + b == b;
    } else {
      assert (a + b)[0] == a[0] && (a + b)[1..] == a[1..] + b;
      CallsConcat(a[1..], b);
    }
  }

  /** A dispatch calls the stored callback exactly once, whether or not it
      throws, and a throw is caught (logged), never propagated. */
  lemma {:induction false} DispatchCallsOnce(t: PooledEventData, linked: ColdData, arg: Argument, throws: bool)
    requires linked.callback.Some?
    ensures Calls(Dispatch(t, linked, arg, throws)) == 1
    ensures Dispatch(t, linked, arg, throws)[..1] == Dispatch(t, linked, arg, false)
  {
    var call := [Called(linked.callback.value, linked.callbackTarget, arg)];
    var logged := if throws then [ExceptionLogged(t.target)] else [];
    CallsConcat(call, logged);
    assert call[1..] == [];
  }
}

=== FILE: controller.dfy ===
/** `BehaviorTreeController`: holds the root, and once per frame clears the
    editor flags of the whole tree and ticks the root once. Also the
    correspondence between the editor flags and the events of a tick. */
module Controller {
  import opened Lifecycle
  import opened Tree
  import opened Wrappers
  import opened TreeFacts

  // ---------------------------------------------------------------------
  // Editor flags as sets of node ids
  // ---------------------------------------------------------------------

  datatype FlagKind = EnteredFlag | UpdatedFlag | ExitedFlag

  function FlagOf(c: NodeCore, k: FlagKind): bool {
    match k
    case EnteredFlag => c.flags.entered
    case UpdatedFlag => c.flags.updated
    case ExitedFlag => c.flags.exited
  }

  /** The event a tick emits when it raises flag `k`: OnStart raises
      `EnteredThisFrame`, the update step `UpdatedThisFrame`, OnEnd
      `ExitedThisFrame`. */
  predicate Raises(e: Event, k: FlagKind) {
    match k
    case EnteredFlag => e.Started?
    case UpdatedFlag => e.Updated?
    case ExitedFlag => e.Ended?
  }

  /** The ids of the nodes in the tree whose flag `k` is set. */
  function FlagIds(n: Node, k: FlagKind): set<nat>
    decreases n, 1
  {
    var own := OwnIds(n.core, n.id, k);
    match n
    case Leaf(_, _, _) => own
    case Composite(_, _, _, cs) => own + FlagIdsAll(cs, k)
  }

  function FlagIdsAll(cs: seq<Node>, k: FlagKind): set<nat>
    decreases cs, 0
  {
    if |cs| == 0 then {} else FlagIds(cs[0], k) + FlagIdsAll(cs[1..], k)
  }

  /** The ids of the events in a trace that raise flag `k`. */
  function Marks(trace: seq<Event>, k: FlagKind): set<nat> {
    set e | e in trace && Raises(e, k) :: e.id
  }

  /** The lifecycle state of every node, in pre-order. */
  function States(n: Node): seq<(bool, NodeState)>
    decreases n, 1
  {
    var own := [(n.core.started, n.core.lastResult)];
    match n
    case Leaf(_, _, _) => own
    case Composite(_, _, _, cs) => own + StatesAll(cs)
  }

  function StatesAll(cs: seq<Node>): seq<(bool, NodeState)>
    decreases cs, 0
  {
    if |cs| == 0 then [] else States(cs[0]) + StatesAll(cs[1..])
  }

  // ---------------------------------------------------------------------
  // ResetFlags
  // ---------------------------------------------------------------------

  /** `ResetFlags`: clear the three flags on the node and, through its
      children, on every node below it. */
  function ResetFlags(n: Node): (r: Node)
    decreases n, 1
    ensures r.id == n.id
  {
    var core := NodeCore(n.core.started, Cleared, n.core.lastResult);
    match n
    case Leaf(id, _, leaf) => Leaf(id, core, leaf)
    case Composite(id, _, comp, cs) => Composite(id, core, comp, ResetAll(cs))
  }

  function ResetAll(cs: seq<Node>): (r: seq<Node>)
    decreases cs, 0
    ensures |r| == |cs|
  {
    if |cs| == 0 then [] else [ResetFlags(cs[0])] + ResetAll(cs[1..])
  }

  /** `ResetFlags` leaves every flag clear everywhere, and nothing else
      changes: the shape of the tree and the started flag and last result
      of every node are as before. These three facts determine the result. */
  lemma {:induction false} ResetFlagsSpec(n: Node)
    ensures forall k :: FlagIds(ResetFlags(n), k) == {}
    ensures Shape(ResetFlags(n)) == Shape(n)
    ensures States(ResetFlags(n)) == States(n)
    decreases n, 1
  {
    if n.Composite? {
      ResetAllSpec(n.children);
    }
  }

  lemma {:induction false} ResetAllSpec(cs: seq<Node>)
    ensures forall k :: FlagIdsAll(ResetAll(cs), k) == {}
    ensures Shapes(ResetAll(cs)) == Shapes(cs)
    ensures StatesAll(ResetAll(cs)) == StatesAll(cs)
    decreases cs, 0
  {
    if |cs| > 0 {
      ResetFlagsSpec(cs[0]);
      ResetAllSpec(cs[1..]);
      assert ([ResetFlags(cs[0])] + ResetAll(cs[1..]))[1..] == ResetAll(cs[1..]);
    }
  }

  // ---------------------------------------------------------------------
  // Flags follow the events of a tick
  // ---------------------------------------------------------------------

  lemma MarksConcat(a: seq<Event>, b: seq<Event>, k: FlagKind)
    ensures Marks(a + b, k) == Marks(a, k) + Marks(b, k)
  {
  }

  function OwnIds(c: NodeCore, id: nat, k: FlagKind): set<nat> {
    if FlagOf(c, k) then {id} else {}
  }

  /** A node's own events raise its own flags. */
  lemma OwnMarks(n: Node, v: NodeState, k: FlagKind)
    ensures OwnIds(Advance(n.core, v), n.id, k)
      == OwnIds(n.core, n.id, k) + Marks(Opening(n), k) + Marks(Closing(n, v), k)
  {
  }

  /** A tick raises exactly the flags of the nodes it emits events for:
      afterwards a node's `UpdatedThisFrame` is set iff it was set before or
      the node was ticked, `EnteredThisFrame` iff set before or OnStart ran,
      `ExitedThisFrame` iff set before or OnEnd ran. */
  lemma {:induction false} TickRaisesFlags(n: Node, env: Env, frame: nat, k: FlagKind)
    ensures var r := Tick(n, env, frame);
      FlagIds(r.node, k) == FlagIds(n, k) + Marks(r.trace, k)
    decreases n, 2
  {
    if n.Composite? {
      CompositeRaisesFlags(n, env, frame, k);
    } else {
      LeafRaisesFlags(n, env, frame, k);
    }
  }

  lemma {:induction false} CompositeRaisesFlags(n: Node, env: Env, frame: nat, k: FlagKind)
    requires n.Composite?
    ensures var r := Tick(n, env, frame);
      FlagIds(r.node, k) == FlagIds(n, k) + Marks(r.trace, k)
    decreases n, 1
  {
    var r := Tick(n, env, frame);
    var c := Evaluate(n, env, frame);
    TickUnfold(n, env, frame);
    MarksConcat(Opening(n) + c.pass.trace, Closing(n, c.verdict), k);
    MarksConcat(Opening(n), c.pass.trace, k);
    OwnMarks(n, c.verdict, k);
    EvaluatePass(n, env, frame);
    TickUntilRaisesFlags(n.children, StopSet(n.comp), env, frame, k);
    assert r.node == Composite(n.id, Advance(n.core, c.verdict), n.comp, c.pass.children);
    assert FlagIds(r.node, k) == OwnIds(Advance(n.core, c.verdict), n.id, k) + FlagIdsAll(c.pass.children, k);
    assert FlagIds(n, k) == OwnIds(n.core, n.id, k) + FlagIdsAll(n.children, k);
  }

  lemma LeafRaisesFlags(n: Node, env: Env, frame: nat, k: FlagKind)
    requires n.Leaf?
    ensures var r := Tick(n, env, frame);
      FlagIds(r.node, k) == FlagIds(n, k) + Marks(r.trace, k)
  {
    var r := Tick(n, env, frame);
    var c := Evaluate(n, env, frame);
    TickUnfold(n, env, frame);
    MarksConcat(Opening(n) + c.pass.trace, Closing(n, c.verdict), k);
    MarksConcat(Opening(n), c.pass.trace, k);
    OwnMarks(n, c.verdict, k);
    assert Marks(c.pass.trace, k) == {};
    assert r.node == Leaf(n.id, Advance(n.core, c.verdict), n.leaf);
    assert FlagIds(r.node, k) == OwnIds(Advance(n.core, c.verdict), n.id, k);
  }

  lemma {:induction false} TickUntilRaisesFlags(cs: seq<Node>, stop: set<NodeState>, env: Env, frame: nat, k: FlagKind)
    ensures var p := TickUntil(cs, stop, env, frame);
      FlagIdsAll(p.children, k) == FlagIdsAll(cs, k) + Marks(p.trace, k)
    decreases cs, 0
  {
    if |cs| > 0 {
      var t := Tick(cs[0], env, frame);
      TickRaisesFlags(cs[0], env, frame, k);
      if t.verdict in stop {
        assert ([t.node] + cs[1..])[1..] == cs[1..];
      } else {
        var rest := TickUntil(cs[1..], stop, env, frame);
        TickUntilRaisesFlags(cs[1..], stop, env, frame, k);
        assert ([t.node] + rest.children)[1..] == rest.children;
        MarksConcat(t.trace, rest.trace, k);
      }
    }
  }

  // ---------------------------------------------------------------------
  // The controller
  // ---------------------------------------------------------------------

  datatype BehaviorTreeController = BehaviorTreeController(root: Option<Node>)

  datatype Frame = Frame(controller: BehaviorTreeController, trace: seq<Event>)

  /** `RootNode`. */
  function RootNode(c: BehaviorTreeController): Option<Node> {
    c.root
  }

  /** `CreateTree`: replace the root. */
  function CreateTree(c: BehaviorTreeController, root: Node): (r: BehaviorTreeController)
    ensures RootNode(r) == Some(root)
  {
    c.(root := Some(root))
  }

  /** The per-frame `Update`: nothing without a root; otherwise clear the
      flags of the whole tree, then tick the root once and drop its verdict.
      With a root, the root is kept and ticked: its own state takes one
      lifecycle step from the cleared state, its flags afterwards are exactly
      the marks of this frame's events, the tree keeps its shape, and the
      frame opens with the root's own event and, on a terminal verdict, ends
      with the root's OnEnd. */
  function Update(c: BehaviorTreeController, env: Env, frame: nat): (r: Frame)
    ensures c.root.None? ==> r == Frame(c, [])
    ensures c.root.Some? <==> r.controller.root.Some?
    ensures c.root.Some? ==> var root' := r.controller.root.value;
      && root'.id == c.root.value.id
      && (forall k :: FlagIds(root', k) == Marks(r.trace, k))
      && root'.core.flags.updated
      && Shape(root') == Shape(c.root.value)
      && root'.core == Advance(c.root.value.core.(flags := Cleared), root'.core.lastResult)
      && |r.trace| > 0
      && r.trace[0] == (if c.root.value.core.started then Updated(root'.id) else Started(root'.id))
      && (IsTerminal(root'.core.lastResult) ==> r.trace[|r.trace| - 1] == Ended(root'.id))
  {
    match c.root
    case None => Frame(c, [])
    case Some(root) =>
      FrameTick(root, env, frame);
      var t := Tick(ResetFlags(root), env, frame);
      Frame(BehaviorTreeController(Some(t.node)), t.trace)
  }

  /** One frame's tick of a root whose flags were just cleared. */
  lemma FrameTick(root: Node, env: Env, frame: nat)
    ensures var t := Tick(ResetFlags(root), env, frame);
      && t.node.id == root.id
      && (forall k :: FlagIds(t.node, k) == Marks(t.trace, k))
      && t.node.core.flags.updated
      && Shape(t.node) == Shape(root)
      && t.node.core == Advance(root.core.(flags := Cleared), t.node.core.lastResult)
      && |t.trace| > 0
      && t.trace[0] == (if root.core.started then Updated(root.id) else Started(root.id))
      && (IsTerminal(t.node.core.lastResult) ==> t.trace[|t.trace| - 1] == Ended(root.id))
  {
    ResetFlagsSpec(root);
    var t := Tick(ResetFlags(root), env, frame);
    forall k
      ensures FlagIds(t.node, k) == Marks(t.trace, k)
    {
      TickRaisesFlags(ResetFlags(root), env, frame, k);
    }
    TickLifecycle(ResetFlags(root), env, frame);
    TickKeepsShape(ResetFlags(root), env, frame);
  }

  /** After a frame, each editor flag is set on exactly the nodes for which
      the frame's single root tick emitted the matching event: a node's
      `UpdatedThisFrame` holds iff it was ticked in this frame. The root
      itself is ticked first, and the tree keeps its shape. */
  lemma ControllerFrame(c: BehaviorTreeController, env: Env, frame: nat)
    requires c.root.Some?
    ensures var r := Update(c, env, frame); var root' := r.controller.root.value;
      && (forall k :: FlagIds(root', k) == Marks(r.trace, k))
      && root'.core.flags.updated
      && Shape(root') == Shape(c.root.value)
      && r.trace[0] == (if c.root.value.core.started then Updated(root'.id) else Started(root'.id))
  {
    FrameTick(c.root.value, env, frame);
  }
}

=== FILE: event_scenarios.dfy ===
/** Whole-lifecycle properties of `PooledEvent`: the PlayMode test scenarios
    stated for every valid manager, and what happens when a struct copy of a
    handle outlives the copy that was disposed. */
module EventScenarios {
  import opened Wrappers
  import opened Cold
  import opened EventPool
  import opened PooledEvents

  /** Invoking a default handle, or a handle after `Create`, `Bind` and
      `Dispose`, calls nothing and changes nothing. */
  lemma InvokeWithoutRecordDoesNothing(m: Manager, receiver: ObjectId, action: CallbackId, throws: bool)
    requires Valid(m)
    ensures Invoke(Default, m, throws) == Invoked(m, [])
    ensures InvokeEvent(Default, m, None, throws) == Invoked(m, [])
    ensures var c := Create(m);
      var b := Bind(c.handle, c.manager, Plain, Some(receiver), Some(action)).value;
      var d := Dispose(b.handle, b.manager);
      Invoke(d.handle, d.manager, throws).log == [] && InvokeEvent(d.handle, d.manager, None, throws).log == []
  {
    var c := Create(m);
    BindPlainThenInvoke(c.handle, c.manager, Some(receiver), action, None, throws);
  }

  /** `Create().Bind(receiver, action)` then `Invoke()` calls the action
      exactly once, on the receiver. */
  lemma CreateBindInvoke(m: Manager, receiver: ObjectId, action: CallbackId, throws: bool)
    requires Valid(m)
    ensures var c := Create(m);
      var b := Bind(c.handle, c.manager, Plain, Some(receiver), Some(action));
      b.Ok? &&
      var r := Invoke(b.value.handle, b.value.manager, throws);
      Calls(r.log) == 1 && r.log[0] == Called(action, Some(receiver), NoArgument)
  {
    var c := Create(m);
    BindPlainThenInvoke(c.handle, c.manager, Some(receiver), action, None, throws);
  }

  /** `Create().Bind(receiver, (r, obj) => ...)` then `InvokeEvent(go)` calls
      the action exactly once, on the receiver and with `go`. */
  lemma CreateBindInvokeEvent(m: Manager, receiver: ObjectId, action: CallbackId, go: ObjectId, throws: bool)
    requires Valid(m)
    ensures var c := Create(m);
      var b := Bind(c.handle, c.manager, WithObject, Some(receiver), Some(action));
      b.Ok? &&
      var r := InvokeEvent(b.value.handle, b.value.manager, Some(go), throws);
      Calls(r.log) == 1 && r.log[0] == Called(action, Some(receiver), GameObject(Some(go)))
  {
    var c := Create(m);
    BindWithObjectThenInvokeEvent(c.handle, c.manager, Some(receiver), action, Some(go), throws);
  }

  /** A record reused from the pool does not leak its old callback: after
      bind A, invoke, dispose, the next `Create` gets the same record back
      (the free list is a stack), with nothing bound, and after bind B an
      invoke calls B once and nothing else. */
  lemma ReuseDoesNotLeakCallback(m: Manager, a: ObjectId, actionA: CallbackId,
                                 b: ObjectId, actionB: CallbackId, throws: bool)
    requires Valid(m)
    ensures var c1 := Create(m);
      var b1 := Bind(c1.handle, c1.manager, Plain, Some(a), Some(actionA));
      b1.Ok? &&
      var i1 := Invoke(b1.value.handle, b1.value.manager, throws);
      var d := Dispose(b1.value.handle, i1.manager);
      var c2 := Create(d.manager);
      c2.handle == c1.handle &&
      Unbound(c2.manager.slots[c2.handle.cold.value]) &&
      Invoke(c2.handle, c2.manager, throws).log == [] &&
      var b2 := Bind(c2.handle, c2.manager, Plain, Some(b), Some(actionB));
      b2.Ok? &&
      var i2 := Invoke(b2.value.handle, b2.value.manager, throws);
      Calls(i1.log) == 1 && i1.log[0] == Called(actionA, Some(a), NoArgument) &&
      Calls(i2.log) == 1 && i2.log[0] == Called(actionB, Some(b), NoArgument)
  {
    var c1 := Create(m);
    BindPlainThenInvoke(c1.handle, c1.manager, Some(a), actionA, None, throws);
    var b1 := Bind(c1.handle, c1.manager, Plain, Some(a), Some(actionA)).value;
    var i1 := Invoke(b1.handle, b1.manager, throws);
    var d := Dispose(b1.handle, i1.manager);
    var c2 := Create(d.manager);
    assert c2.handle == c1.handle;
    BindPlainThenInvoke(c2.handle, c2.manager, Some(b), actionB, None, throws);
  }

  /** Disposing one copy of a handle leaves the other copy valid, and
      disposing that too puts the record on the free list a second time. */
  lemma CopyDisposedTwiceDoubleFrees(m: Manager)
    requires Sound(m)
    ensures var c := Create(m);
      var copy := c.handle;
      var d1 := Dispose(c.handle, c.manager);
      IsValid(copy) &&
      var d2 := Dispose(copy, d1.manager);
      multiset(d2.manager.pool)[copy.cold.value] == 2 && !Partitioned(d2.manager)
  {
    var c := Create(m);
    CreateSound(m);
    var i := c.handle.cold.value;
    var d1 := Dispose(c.handle, c.manager);
    DisposeKeepsSound(c.handle, c.manager);
    assert d1.manager.pool == c.manager.pool + [i];
    ReleaseFreeRecordTwice(d1.manager, i);
    assert Dispose(c.handle, d1.manager).manager == ReleaseCold(d1.manager, i);
  }

  /** After both copies are disposed, the next two `Create` calls return two
      handles on the same record. */
  lemma CopyDisposedTwiceSharesRecord(m: Manager)
    requires Valid(m)
    ensures var c := Create(m);
      var d1 := Dispose(c.handle, c.manager);
      var d2 := Dispose(c.handle, d1.manager);
      var e1 := Create(d2.manager);
      var e2 := Create(e1.manager);
      e1.handle == e2.handle == c.handle
  {
    var c := Create(m);
    var i := c.handle.cold.value;
    var d1 := Dispose(c.handle, c.manager);
    var d2 := Dispose(c.handle, d1.manager);
    assert d2.manager.pool == c.manager.pool + [i] + [i];
    TwoCreatesShareTop(d2.manager, i);
  }

  /** With the same record on top of the free list twice, two `Create` calls
      return equal handles. */
  lemma TwoCreatesShareTop(m: Manager, i: SlotRef)
    requires Valid(m) && |m.pool| >= 2
    requires m.pool[|m.pool| - 1] == i && m.pool[|m.pool| - 2] == i
    ensures Create(m).handle == PooledEvent(Some(i))
    ensures Create(Create(m).manager).handle == PooledEvent(Some(i))
  {
    var e1 := Create(m);
    assert e1.manager.pool == m.pool[..|m.pool| - 1];
  }

  /** A copy that outlives `Dispose` can still `Bind`, and binds a record on
      the free list; the next `Create` hands that record, already bound, to a
      new event, whose first `Invoke` calls the stale action. */
  lemma StaleCopyBindLeaksIntoNextEvent(m: Manager, target: ObjectId, action: CallbackId, throws: bool)
    requires Valid(m)
    ensures var c := Create(m);
      var copy := c.handle;
      var d := Dispose(c.handle, c.manager);
      var b := Bind(copy, d.manager, Plain, Some(target), Some(action));
      b.Ok? && !PoolCleared(b.value.manager) &&
      var e := Create(b.value.manager);
      e.handle == copy &&
      Invoke(e.handle, e.manager, throws).log[0] == Called(action, Some(target), NoArgument)
  {
    var c := Create(m);
    var i := c.handle.cold.value;
    var d := Dispose(c.handle, c.manager);
    assert Linked(c.handle, d.manager);
    var b := Bind(c.handle, d.manager, Plain, Some(target), Some(action)).value;
    assert b.manager.pool[|b.manager.pool| - 1] == i;
    var e := Create(b.manager);
    assert Linked(e.handle, e.manager);
  }
}

=== FILE: lifecycle.dfy ===
/** The verdict of a behaviour-tree node and the lifecycle that `Node.Update`
    wraps around every node's own `OnUpdate`: OnStart when the node is not
    mid-run, OnUpdate every tick, OnEnd on a terminal verdict, plus the
    editor-only per-frame flags and `LastResult`. */
module Lifecycle {

  /** `NodeState`: two terminal verdicts and `Running`. */
  datatype NodeState = Success | Failure | Running

  predicate IsTerminal(v: NodeState) {
    v != Running
  }

  /** The editor-only flags `EnteredThisFrame`, `UpdatedThisFrame`, `ExitedThisFrame`. */
  datatype Flags = Flags(entered: bool, updated: bool, exited: bool)

  const Cleared: Flags := Flags(false, false, false)

  /** The private state `Node` keeps across ticks: `_started`, the flags and `LastResult`. */
  datatype NodeCore = NodeCore(started: bool, flags: Flags, lastResult: NodeState)

  /** A newly constructed node: not started, no flag set, `LastResult` initialised to `Running`. */
  const Fresh: NodeCore := NodeCore(false, Cleared, Running)

  /** The three overridable hooks, in the order `Update` may call them. */
  datatype Hook = OnStart | OnUpdate | OnEnd

  datatype Step = Step(core: NodeCore, hooks: seq<Hook>)

  /** The state after one call of `Node.Update` on a node whose `OnUpdate`
      returns `v`: `_started` is set on entry and cleared on a terminal
      verdict, each flag is raised when its step runs, `LastResult` is `v`. */
  function Advance(c: NodeCore, v: NodeState): (r: NodeCore)
    ensures r.lastResult == v
    ensures r.started <==> v == Running
    ensures r.flags.updated
    ensures r.flags.entered <==> c.flags.entered || !c.started
    ensures r.flags.exited <==> c.flags.exited || IsTerminal(v)
  {
    var entering := !c.started;
    var exiting := IsTerminal(v);
    NodeCore(!exiting, Flags(c.flags.entered || entering, true, c.flags.exited || exiting), v)
  }

  /** The hooks one call of `Node.Update` runs, in order: OnStart only when
      the node is not started, OnUpdate always, OnEnd only on a terminal
      verdict. */
  function Hooks(c: NodeCore, v: NodeState): (hs: seq<Hook>)
    ensures multiset(hs)[OnStart] == (if c.started then 0 else 1)
    ensures multiset(hs)[OnUpdate] == 1
    ensures multiset(hs)[OnEnd] == (if IsTerminal(v) then 1 else 0)
    ensures !c.started ==> hs[0] == OnStart && hs[1] == OnUpdate
    ensures c.started ==> hs[0] == OnUpdate
    ensures IsTerminal(v) ==> hs[|hs| - 1] == OnEnd
  {
    (if c.started then [] else [OnStart]) + [OnUpdate] + (if IsTerminal(v) then [OnEnd] else [])
  }

  /** One call of `Node.Update`. Its returned verdict is `v` itself. */
  function Update(c: NodeCore, v: NodeState): Step {
    Step(Advance(c, v), Hooks(c, v))
  }

  /** Consecutive calls of `Update` whose `OnUpdate` returns the verdicts `vs` in turn. */
  function Run(c: NodeCore, vs: seq<NodeState>): (r: Step)
    decreases |vs|
  {
    if |vs| == 0 then Step(c, [])
    else
      var s := Update(c, vs[0]);
      var rest := Run(s.core, vs[1..]);
      Step(rest.core, s.hooks + rest.hooks)
  }

  /** `_started` holds after a run exactly when the most recent `Update` returned Running. */
  lemma {:induction false} RunStartedIffLastRunning(c: NodeCore, vs: seq<NodeState>)
    requires |vs| > 0
    ensures Run(c, vs).core.started <==> vs[|vs| - 1] == Running
    ensures Run(c, vs).core.lastResult == vs[|vs| - 1]
    decreases |vs|
  {
    if |vs| > 1 {
      RunStartedIffLastRunning(Update(c, vs[0]).core, vs[1..]);
      assert vs[1..][|vs[1..]| - 1] == vs[|vs| - 1];
    }
  }

  /** OnStart and OnEnd balance: over any run the number of OnStart calls
      minus the number of OnEnd calls is the change in `_started`. From a
      node that is not started, the difference is 0 or 1, and 1 exactly
      when the node is left started. */
  lemma {:induction false} RunHookBalance(c: NodeCore, vs: seq<NodeState>)
    ensures var r := Run(c, vs);
      multiset(r.hooks)[OnStart] + (if c.started then 1 else 0)
      == multiset(r.hooks)[OnEnd] + (if r.core.started then 1 else 0)
    ensures multiset(Run(c, vs).hooks)[OnUpdate] == |vs|
    decreases |vs|
  {
    if |vs| > 0 {
      var s := Update(c, vs[0]);
      RunHookBalance(s.core, vs[1..]);
      var rest := Run(s.core, vs[1..]);
      assert multiset(s.hooks + rest.hooks) == multiset(s.hooks) + multiset(rest.hooks);
    }
  }

  /** The same balance stated from a node that is not started. */
  lemma StartEndDifference(vs: seq<NodeState>)
    ensures var r := Run(Fresh, vs);
      var d: int := multiset(r.hooks)[OnStart] as int - multiset(r.hooks)[OnEnd] as int;
      (d == 0 || d == 1) && (d == 1 <==> r.core.started)
  {
    RunHookBalance(Fresh, vs);
  }

  /** A node whose `OnUpdate` never returns Running gets OnStart and OnEnd on every tick. */
  lemma {:induction false} NeverRunningBracketsEveryTick(c: NodeCore, vs: seq<NodeState>)
    requires !c.started
    requires forall i :: 0 <= i < |vs| ==> vs[i] != Running
    ensures multiset(Run(c, vs).hooks)[OnStart] == |vs|
    ensures multiset(Run(c, vs).hooks)[OnEnd] == |vs|
    ensures !Run(c, vs).core.started
    decreases |vs|
  {
    if |vs| > 0 {
      var s := Update(c, vs[0]);
      NeverRunningBracketsEveryTick(s.core, vs[1..]);
      var rest := Run(s.core, vs[1..]);
      assert multiset(s.hooks + rest.hooks) == multiset(s.hooks) + multiset(rest.hooks);
    }
  }

  /** A node that keeps returning Running after it started is never re-entered:
      the whole run holds one OnStart (only if it was not started) and no OnEnd. */
  lemma {:induction false} RunningRunNotReentered(c: NodeCore, vs: seq<NodeState>)
    requires forall i :: 0 <= i < |vs| ==> vs[i] == Running
    ensures multiset(Run(c, vs).hooks)[OnStart] == (if c.started || |vs| == 0 then 0 else 1)
    ensures multiset(Run(c, vs).hooks)[OnEnd] == 0
    decreases |vs|
  {
    if |vs| > 0 {
      var s := Update(c, vs[0]);
      RunningRunNotReentered(s.core, vs[1..]);
      var rest := Run(s.core, vs[1..]);
      assert multiset(s.hooks + rest.hooks) == multiset(s.hooks) + multiset(rest.hooks);
    }
  }
}

=== FILE: object_pool_manager.dfy ===
/** The bookkeeping of `ObjectPoolManager`: one stack of pooled instances
    per prefab, filled on registration and by `Release`, drained by `Get`.
    Instantiation hands out fresh ids; transforms, activation and the
    auto-release timers are not part of this model. */
module ObjectPool {
  import opened Wrappers
  import opened Ranges
  import opened PooledObjects
  import opened PoolRegistries

  /** The static `poolTable` (each stack's top is its last element), every
      `PooledObject` instantiated so far by id, the next fresh id, and the
      `poolRegistry` field (possibly null). */
  datatype Pools = Pools(
    table: map<Prefab, seq<InstanceId>>,
    objects: map<InstanceId, PooledObject>,
    nextId: nat,
    registry: Option<PoolRegistry>)

  /** The manager as it wakes: no pools, no instances. */
  function Empty(registry: Option<PoolRegistry>): Pools {
    Pools(map[], map[], 0, registry)
  }

  /** The manager as it wakes satisfies the invariant, with or without a
      registry, and so does the manager `Awake` leaves after registering
      the registry's entries. */
  lemma EmptyValid(entries: seq<PoolEntry>)
    ensures Valid(Empty(None))
    ensures Valid(Empty(Some(Loaded(entries))))
    ensures Valid(RegisterFromRegistry(Empty(Some(Loaded(entries)))))
  {
    RegisterAllValid(Empty(Some(Loaded(entries))), entries);
  }

  /** A preload count as the `for` loop uses it: negative means none. */
  function Count(n: int): nat {
    if n < 0 then 0 else n
  }

  /** Every stacked id is a known instance that is marked in its pool. */
  predicate Stocked(s: Pools) {
    forall k, j :: k in s.table && 0 <= j < |s.table[k]| ==>
      s.table[k][j] in s.objects && s.objects[s.table[k][j]].isInPool
  }

  /** No instance is on two stacks, or twice on one. */
  predicate Unique(s: Pools) {
    forall k1, j1, k2, j2 ::
      k1 in s.table && k2 in s.table && 0 <= j1 < |s.table[k1]| && 0 <= j2 < |s.table[k2]| &&
      s.table[k1][j1] == s.table[k2][j2] ==>
      k1 == k2 && j1 == j2
  }

  /** The registry's built table maps each prefab to an entry for that prefab. */
  predicate RegistryOk(r: Option<PoolRegistry>) {
    r.Some? ==> forall p :: p in r.value.lookup ==> r.value.lookup[p].prefab == Some(p)
  }

  /** The invariant the manager keeps. */
  predicate Valid(s: Pools) {
    (forall id :: id in s.objects ==> id < s.nextId) &&
    Stocked(s) && Unique(s) && RegistryOk(s.registry)
  }

  /** The instances `Register` preloads: `n` fresh ids, each initialised for `p`. */
  function Preloaded(p: Prefab, lo: nat, n: nat): (objs: map<InstanceId, PooledObject>)
    ensures forall id :: id in objs <==> lo <= id < lo + n
    ensures forall id :: id in objs ==> objs[id] == Init(Added, p)
  {
    RangeMembers(lo, n);
    map id | id in Range(lo, n) :: Init(Added, p)
  }

  /** `Register(prefab, preloadCount)`: a null prefab or an already registered
      one changes nothing; otherwise a new stack is made holding
      `preloadCount` fresh instances, all initialised for the prefab. */
  function Register(s: Pools, prefab: Option<Prefab>, preloadCount: int): (r: Pools)
    ensures prefab.None? || prefab.value in s.table ==> r == s
    ensures prefab.Some? && prefab.value !in s.table ==>
      var p, n := prefab.value, Count(preloadCount);
      r.table == s.table[p := Range(s.nextId, n)] && r.nextId == s.nextId + n && r.registry == s.registry &&
      (forall id :: id in r.objects <==> id in s.objects || s.nextId <= id < r.nextId) &&
      (forall id :: s.nextId <= id < r.nextId ==> r.objects[id] == Init(Added, p))
    ensures forall id :: id in s.objects && id < s.nextId ==> id in r.objects && r.objects[id] == s.objects[id]
  {
    if prefab.None? || prefab.value in s.table then s
    else
      var p, n := prefab.value, Count(preloadCount);
      Pools(s.table[p := Range(s.nextId, n)], s.objects + Preloaded(p, s.nextId, n), s.nextId + n, s.registry)
  }

  lemma RegisterValid(s: Pools, prefab: Option<Prefab>, preloadCount: int)
    requires Valid(s)
    ensures Valid(Register(s, prefab, preloadCount))
  {
    if prefab.Some? && prefab.value !in s.table {
      var r := Register(s, prefab, preloadCount);
      var p := prefab.value;
      assert Stocked(r) by {
        forall k, j | k in r.table && 0 <= j < |r.table[k]|
          ensures r.table[k][j] in r.objects && r.objects[r.table[k][j]].isInPool
        {
          if k != p {
            assert r.table[k] == s.table[k];
          }
        }
      }
      assert forall k, j :: k in s.table && 0 <= j < |s.table[k]| ==> s.table[k][j] < s.nextId;
      assert forall j :: 0 <= j < |r.table[p]| ==> r.table[p][j] >= s.nextId;
      assert Unique(r);
    }
  }

  /** The result of `CreateInstance`: the manager and the new instance. */
  datatype Made = Made(pools: Pools, id: InstanceId)

  /** `CreateInstance(prefab)`: instantiate a fresh instance and `Init` its
      `PooledObject` for the prefab. It is not put on any stack. */
  function CreateInstance(s: Pools, prefab: Prefab): (r: Made)
    ensures (forall id :: id in s.objects ==> id < s.nextId) ==> r.id !in s.objects
    ensures r.pools == s.(objects := s.objects[r.id := Init(Added, prefab)], nextId := s.nextId + 1)
  {
    Made(s.(objects := s.objects[s.nextId := Init(Added, prefab)], nextId := s.nextId + 1), s.nextId)
  }

  /** The stack entry `id` refers to a live instance: the reference is not
      null and the instance is not destroyed. */
  predicate Live(objects: map<InstanceId, PooledObject>, id: InstanceId) {
    id in objects && !objects[id].isDestroyed
  }

  /** What the pop loop of `Get` leaves: the rest of the stack, and the live
      instance it stopped at, if any. */
  datatype Popped = Popped(rest: seq<InstanceId>, found: Option<InstanceId>)

  /** The `while` loop of `Get`: pop and discard null or destroyed entries until a
      live one is popped or the stack is empty. */
  function PopLive(stack: seq<InstanceId>, objects: map<InstanceId, PooledObject>): (r: Popped)
    ensures r.found.None? ==> r.rest == [] && forall j :: 0 <= j < |stack| ==> !Live(objects, stack[j])
    ensures r.found.Some? ==>
      |r.rest| < |stack| && r.rest == stack[..|r.rest|] && r.found.value == stack[|r.rest|] &&
      Live(objects, r.found.value) &&
      forall j :: |r.rest| < j < |stack| ==> !Live(objects, stack[j])
    decreases |stack|
  {
    if stack == [] then Popped([], None)
    else
      var top := stack[|stack| - 1];
      if Live(objects, top) then Popped(stack[..|stack| - 1], Some(top))
      else
        var r := PopLive(stack[..|stack| - 1], objects);
        assert r.found.Some? ==> r.rest == stack[..|stack| - 1][..|r.rest|];
        r
  }

  /** The registration `Get` performs for a key with no pool: with the
      registry's entry for it if the registry has one, else with defaults. */
  function EnsurePool(s: Pools, p: Prefab): (r: Pools)
    requires RegistryOk(s.registry)
    ensures p in r.table && RegistryOk(r.registry)
    ensures p in s.table ==> r == s
    ensures p !in s.table && s.registry.Some? ==>
      var l := TryGetEntry(s.registry.value, Some(p));
      r == Register(s.(registry := Some(l.registry)), Some(p), if l.found then l.entry.preloadCount else 0)
    ensures p !in s.table && s.registry.None? ==> r == Register(s, Some(p), 0)
    ensures r.nextId >= s.nextId
    ensures forall id :: id in s.objects && id < s.nextId ==> id in r.objects && r.objects[id] == s.objects[id]
  {
    if p in s.table then s
    else if s.registry.Some? then
      var l := TryGetEntry(s.registry.value, Some(p));
      var s1 := s.(registry := Some(l.registry));
      if l.found then Register(s1, l.entry.prefab, l.entry.preloadCount)
      else Register(s1, Some(p), 0)
    else Register(s, Some(p), 0)
  }

  lemma EnsurePoolValid(s: Pools, p: Prefab)
    requires Valid(s)
    ensures Valid(EnsurePool(s, p))
  {
    if p !in s.table && s.registry.Some? {
      var l := TryGetEntry(s.registry.value, Some(p));
      var s1 := s.(registry := Some(l.registry));
      assert Valid(s1);
      RegisterValid(s1, Some(p), if l.found then l.entry.preloadCount else 0);
    } else {
      RegisterValid(s, Some(p), 0);
    }
  }

  /** The result of `Get`: the manager and the instance handed out. */
  datatype Got = Got(pools: Pools, obj: Option<InstanceId>)

  /** `stack[i]` is the topmost instance of `stack` that is not destroyed. */
  predicate TopLive(stack: seq<InstanceId>, objects: map<InstanceId, PooledObject>, i: int) {
    0 <= i < |stack| && Live(objects, stack[i]) &&
    forall j :: i < j < |stack| ==> !Live(objects, stack[j])
  }

  /** No entry of `stack` is live. */
  predicate NoneLive(stack: seq<InstanceId>, objects: map<InstanceId, PooledObject>) {
    forall j :: 0 <= j < |stack| ==> !Live(objects, stack[j])
  }

  /** The part of `Get` after the pool exists: the pop loop, then
      `CreateInstance` if it found nothing, then `MarkInUse`. The topmost live
      instance is handed out and everything above it is dropped; if there is
      none the stack is emptied and a fresh instance is handed out. */
  function Take(s: Pools, p: Prefab): (r: Got)
    requires p in s.table
    ensures forall i :: TopLive(s.table[p], s.objects, i) ==>
      var id := s.table[p][i];
      r == Got(s.(table := s.table[p := s.table[p][..i]], objects := s.objects[id := MarkInUse(s.objects[id])]), Some(id))
    ensures NoneLive(s.table[p], s.objects) ==>
      r == Got(s.(table := s.table[p := []], objects := s.objects[s.nextId := MarkInUse(Init(Added, p))],
                  nextId := s.nextId + 1), Some(s.nextId))
  {
    var popped := PopLive(s.table[p], s.objects);
    var s1 := s.(table := s.table[p := popped.rest]);
    if popped.found.Some? then
      var id := popped.found.value;
      Got(s1.(objects := s1.objects[id := MarkInUse(s1.objects[id])]), Some(id))
    else
      var made := CreateInstance(s1, p);
      var id := made.id;
      Got(made.pools.(objects := made.pools.objects[id := MarkInUse(made.pools.objects[id])]), Some(id))
  }

  /** `Get(poolKey)`: a null key yields null. Otherwise the key's pool is
      registered if missing, and the instance is taken from it. The instance
      handed out is alive and out of its pool; it is either an instance that
      was known before, and then only its in-pool mark changed, or a new one. */
  function Get(s: Pools, key: Option<Prefab>): (r: Got)
    requires Valid(s)
    ensures key.None? <==> r.obj.None?
    ensures key.None? ==> r.pools == s
    ensures key.Some? ==> key.value in r.pools.table
    ensures r.obj.Some? ==> var id := r.obj.value;
      id in r.pools.objects && !r.pools.objects[id].isInPool && !r.pools.objects[id].isDestroyed &&
      (id in s.objects ==> r.pools.objects[id] == MarkInUse(s.objects[id])) &&
      (id !in s.objects ==> id >= s.nextId)
    ensures forall id :: id in s.objects && Some(id) != r.obj ==> id in r.pools.objects && r.pools.objects[id] == s.objects[id]
  {
    if key.None? then Got(s, None)
    else
      EnsurePoolValid(s, key.value);
      var s1 := EnsurePool(s, key.value);
      TakeHandsOut(s1, key.value);
      Take(s1, key.value)
  }

  /** What `Take` hands out: a live instance, now out of its pool, that was
      either on the stack or is new; no other instance changes. */
  lemma TakeHandsOut(s: Pools, p: Prefab)
    requires p in s.table
    requires forall id :: id in s.objects ==> id < s.nextId
    ensures var r := Take(s, p);
      r.obj.Some? && p in r.pools.table &&
      var id := r.obj.value;
      id in r.pools.objects && !r.pools.objects[id].isInPool && !r.pools.objects[id].isDestroyed &&
      (id in s.objects ==> r.pools.objects[id] == MarkInUse(s.objects[id])) &&
      (id !in s.objects ==> id == s.nextId) &&
      (forall other :: other in s.objects && other != id ==> other in r.pools.objects && r.pools.objects[other] == s.objects[other])
  {
    var popped := PopLive(s.table[p], s.objects);
    if popped.found.Some? {
      assert TopLive(s.table[p], s.objects, |popped.rest|);
    } else {
      assert NoneLive(s.table[p], s.objects);
    }
  }

  /** `Release(poolKey, pooled)`: a null key, a null or destroyed instance, a
      key with no pool, or an instance already in the pool change nothing;
      otherwise the instance is marked released and pushed on the key's stack. */
  function Release(s: Pools, key: Option<Prefab>, obj: Option<InstanceId>): (r: Pools)
    requires obj.Some? ==> obj.value in s.objects
    ensures key.None? || obj.None? ==> r == s
    ensures obj.Some? && (s.objects[obj.value].isDestroyed || s.objects[obj.value].isInPool) ==> r == s
    ensures key.Some? && key.value !in s.table ==> r == s
    ensures (key.Some? && obj.Some? && key.value in s.table &&
             !s.objects[obj.value].isDestroyed && !s.objects[obj.value].isInPool) ==>
      var k, id := key.value, obj.value;
      r.table == s.table[k := s.table[k] + [id]] &&
      r.objects == s.objects[id := MarkReleased(s.objects[id])] &&
      r.nextId == s.nextId && r.registry == s.registry
  {
    if key.None? || obj.None? || s.objects[obj.value].isDestroyed then s
    else if key.value !in s.table then s
    else if s.objects[obj.value].isInPool then s
    else
      var k, id := key.value, obj.value;
      s.(objects := s.objects[id := MarkReleased(s.objects[id])], table := s.table[k := s.table[k] + [id]])
  }

  /** `PooledObject.ReturnToPool`, which the auto-release timer also runs on
      expiry: an object in its pool stays put; any other is released to the
      pool of the prefab it was initialised for. A live instance out of its
      pool goes on top of that prefab's stack and is marked in the pool;
      otherwise, or when that prefab has no pool, nothing changes. */
  function ReturnToPool(s: Pools, id: InstanceId): (r: Pools)
    requires id in s.objects
    ensures var o := s.objects[id];
      o.isInPool || o.isDestroyed || o.poolKey.None? || o.poolKey.value !in s.table ==> r == s
    ensures var o := s.objects[id];
      !o.isInPool && !o.isDestroyed && o.poolKey.Some? && o.poolKey.value in s.table ==>
      var k := o.poolKey.value;
      r.table == s.table[k := s.table[k] + [id]] &&
      id in r.objects && r.objects[id].isInPool && r.objects[id].poolKey == o.poolKey &&
      r.objects.Keys == s.objects.Keys &&
      (forall other :: other in s.objects && other != id ==> r.objects[other] == s.objects[other]) &&
      r.nextId == s.nextId && r.registry == s.registry
  {
    if s.objects[id].isInPool then s else Release(s, s.objects[id].poolKey, Some(id))
  }

  /** The `foreach` of `RegisterFromRegistry`: null prefabs are skipped and
      the others registered in list order. */
  function RegisterAll(s: Pools, es: seq<PoolEntry>): (r: Pools)
    ensures forall p :: p in r.table <==> p in s.table || Lists(es, p)
    ensures forall p :: p in s.table ==> r.table[p] == s.table[p]
    ensures r.registry == s.registry
    decreases |es|
  {
    if es == [] then s
    else
      var e := es[0];
      var s1 := if e.prefab.None? then s else Register(s, e.prefab, e.preloadCount);
      ListsFront(es);
      RegisterAll(s1, es[1..])
  }

  /** An entry list names a prefab iff its first entry or the rest does. */
  lemma ListsFront(es: seq<PoolEntry>)
    requires es != []
    ensures forall p: Prefab :: Lists(es, p) <==> es[0].prefab == Some(p) || Lists(es[1..], p)
  {
    forall p: Prefab | Lists(es, p) && es[0].prefab != Some(p)
      ensures Lists(es[1..], p)
    {
      var i :| 0 <= i < |es| && es[i].prefab == Some(p);
      assert es[1..][i - 1] == es[i];
    }
    forall p: Prefab | Lists(es[1..], p)
      ensures Lists(es, p)
    {
      var i :| 0 <= i < |es[1..]| && es[1..][i].prefab == Some(p);
      assert es[i + 1] == es[1..][i];
    }
  }

  /** `RegisterFromRegistry`: nothing without a registry; otherwise every
      listed prefab gets a pool, existing pools are kept, and a new pool is
      preloaded with the count of the first entry naming its prefab. */
  function RegisterFromRegistry(s: Pools): (r: Pools)
    ensures s.registry.None? ==> r == s
    ensures s.registry.Some? ==> var es := s.registry.value.entries;
      (forall p :: p in r.table <==> p in s.table || Lists(es, p)) &&
      (forall p :: p in s.table ==> r.table[p] == s.table[p]) &&
      (forall p, i :: p !in s.table && FirstFor(es, p, i) ==> |r.table[p]| == Count(es[i].preloadCount))
    ensures r.registry == s.registry
    ensures Valid(s) ==> Valid(r)
  {
    if s.registry.None? then s
    else
      var es := s.registry.value.entries;
      forall p, i | p !in s.table && FirstFor(es, p, i)
        ensures |RegisterAll(s, es).table[p]| == Count(es[i].preloadCount)
      {
        RegisterAllFirstCount(s, es, p, i);
      }
      if Valid(s) then RegisterAllValid(s, es); RegisterAll(s, es) else RegisterAll(s, es)
  }

  /** The engine destroys an instance: its `PooledObject.OnDestroy` runs and
      nothing else changes; a stack may still hold it. */
  function DestroyInstance(s: Pools, id: InstanceId): (r: Pools)
    requires id in s.objects
    ensures r.objects.Keys == s.objects.Keys
    ensures r.objects[id].isDestroyed
    ensures r.table == s.table && r.nextId == s.nextId && r.registry == s.registry
    ensures forall other :: other in s.objects && other != id ==> r.objects[other] == s.objects[other]
  {
    s.(objects := s.objects[id := OnDestroy(s.objects[id])])
  }

  lemma DestroyValid(s: Pools, id: InstanceId)
    requires Valid(s) && id in s.objects
    ensures Valid(DestroyInstance(s, id))
  {
  }

  /** `Get` keeps the invariant. */
  lemma GetValid(s: Pools, key: Option<Prefab>)
    requires Valid(s)
    ensures Valid(Get(s, key).pools)
  {
    if key.Some? {
      var p := key.value;
      EnsurePoolValid(s, p);
      TakeValid(EnsurePool(s, p), p);
    }
  }

  lemma TakeValid(s: Pools, p: Prefab)
    requires Valid(s) && p in s.table
    ensures Valid(Take(s, p).pools)
  {
    var popped := PopLive(s.table[p], s.objects);
    if popped.found.Some? {
      TakeLiveValid(s, p, |popped.rest|);
    } else {
      TakeMadeValid(s, p);
    }
  }

  /** Handing out the topmost live instance keeps the invariant: it leaves
      the stack, and it was on no other. */
  lemma TakeLiveValid(s: Pools, p: Prefab, i: int)
    requires Valid(s) && p in s.table && TopLive(s.table[p], s.objects, i)
    ensures Valid(Take(s, p).pools)
  {
    var stack := s.table[p];
    var r := Take(s, p).pools;
    var id := stack[i];
    assert forall j :: 0 <= j < |r.table[p]| ==> r.table[p][j] == stack[j];
    assert forall k :: k in r.table && k != p ==> r.table[k] == s.table[k];
    assert forall k, j :: k in r.table && 0 <= j < |r.table[k]| ==> r.table[k][j] != id;
  }

  /** Emptying the stack and handing out a new instance keeps the invariant. */
  lemma TakeMadeValid(s: Pools, p: Prefab)
    requires Valid(s) && p in s.table && NoneLive(s.table[p], s.objects)
    ensures Valid(Take(s, p).pools)
  {
    var r := Take(s, p).pools;
    assert forall k :: k in r.table && k != p ==> r.table[k] == s.table[k];
  }

  /** `Release` keeps the invariant: the instance it pushes is out of its
      pool, so by the invariant it is on no stack. */
  lemma ReleaseValid(s: Pools, key: Option<Prefab>, obj: Option<InstanceId>)
    requires Valid(s) && (obj.Some? ==> obj.value in s.objects)
    ensures Valid(Release(s, key, obj))
  {
    var r := Release(s, key, obj);
    if r != s {
      var k, id := key.value, obj.value;
      assert forall k', j :: k' in s.table && 0 <= j < |s.table[k']| ==> s.table[k'][j] != id;
      assert forall j :: 0 <= j < |s.table[k]| ==> r.table[k][j] == s.table[k][j];
      assert r.table[k][|s.table[k]|] == id;
    }
  }

  /** Releasing the same instance twice pushes it once: the second call finds
      it in its pool. */
  lemma ReleaseTwice(s: Pools, key: Option<Prefab>, obj: Option<InstanceId>)
    requires obj.Some? ==> obj.value in s.objects
    ensures Release(Release(s, key, obj), key, obj) == Release(s, key, obj)
  {
  }

  /** Whatever `Get` hands out, releasing it to the same key puts it back
      on top of that key's stack and marks it in the pool. */
  lemma GetThenRelease(s: Pools, p: Prefab)
    requires Valid(s)
    ensures var g := Get(s, Some(p));
      var r := Release(g.pools, Some(p), g.obj);
      r.table == g.pools.table[p := g.pools.table[p] + [g.obj.value]] &&
      r.objects[g.obj.value].isInPool
  {
  }

  /** Stacks are last in, first out: getting from the key an instance was
      just released to hands that instance back and restores the manager. */
  lemma ReleaseThenGet(s: Pools, p: Prefab, id: InstanceId)
    requires Valid(s) && p in s.table && id in s.objects
    requires !s.objects[id].isInPool && !s.objects[id].isDestroyed
    ensures var r := Release(s, Some(p), Some(id));
      Valid(r) && Get(r, Some(p)) == Got(s, Some(id))
  {
    var r := Release(s, Some(p), Some(id));
    ReleaseValid(s, Some(p), Some(id));
    GetIsTake(r, p);
    var k := |s.table[p]|;
    assert r.table[p] == s.table[p] + [id];
    assert TopLive(r.table[p], r.objects, k);
    assert r.table[p][..k] == s.table[p];
    assert r.table[p := s.table[p]] == s.table;
    assert r.objects[id := MarkInUse(r.objects[id])] == s.objects;
  }

  /** Every instance on `p`'s stack, if it has one, is keyed to `p`. `Register`
      and `Get` only stack instances made for `p`; a `Release` that names
      another prefab's key can break this. */
  predicate KeyedTo(s: Pools, p: Prefab) {
    p in s.table ==> forall j :: 0 <= j < |s.table[p]| ==>
      s.table[p][j] in s.objects && s.objects[s.table[p][j]].poolKey == Some(p)
  }

  /** Auto-release after `Get`: whatever `Get` hands out from a pool whose
      instances are keyed to it, `ReturnToPool` puts back on top of that
      pool's stack, marked in the pool, and the next `Get` hands it out again. */
  lemma GetThenReturnToPool(s: Pools, p: Prefab)
    requires Valid(s) && KeyedTo(s, p)
    ensures var g := Get(s, Some(p));
      var id := g.obj.value;
      var r := ReturnToPool(g.pools, id);
      r.table == g.pools.table[p := g.pools.table[p] + [id]] &&
      r.objects[id].isInPool &&
      Valid(r) && Get(r, Some(p)) == Got(g.pools, Some(id))
  {
    var g := Get(s, Some(p));
    var id := g.obj.value;
    GetKeyed(s, p);
    GetValid(s, Some(p));
    assert p in g.pools.table && id in g.pools.objects;
    assert !g.pools.objects[id].isInPool && !g.pools.objects[id].isDestroyed;
    ReturnThenGet(g.pools, p, id);
  }

  /** `ReturnToPool` of a live, in-use instance keyed to a registered `p` is
      `Release` to `p`, so the next `Get` from `p` undoes it. */
  lemma ReturnThenGet(t: Pools, p: Prefab, id: InstanceId)
    requires Valid(t) && p in t.table && id in t.objects
    requires !t.objects[id].isInPool && !t.objects[id].isDestroyed && t.objects[id].poolKey == Some(p)
    ensures var r := ReturnToPool(t, id);
      r.table == t.table[p := t.table[p] + [id]] &&
      r.objects[id].isInPool &&
      Valid(r) && Get(r, Some(p)) == Got(t, Some(id))
  {
    assert ReturnToPool(t, id) == Release(t, Some(p), Some(id));
    ReleaseThenGet(t, p, id);
  }

  /** The instance `Get` hands out from a pool keyed to `p` is keyed to `p`. */
  lemma GetKeyed(s: Pools, p: Prefab)
    requires Valid(s) && KeyedTo(s, p)
    ensures var g := Get(s, Some(p));
      g.obj.value in g.pools.objects && g.pools.objects[g.obj.value].poolKey == Some(p)
  {
    GetIsTake(s, p);
    var s1 := EnsurePool(s, p);
    if p !in s.table {
      var n := |s1.table[p]|;
      assert s1.table[p] == Range(s.nextId, n);
      assert forall j :: 0 <= j < n ==> s1.table[p][j] == s.nextId + j;
    }
    TakeKeyed(s1, p);
  }

  /** The instance `Take` hands out from a stack keyed to `p` is keyed to `p`. */
  lemma TakeKeyed(s: Pools, p: Prefab)
    requires p in s.table && KeyedTo(s, p)
    ensures var t := Take(s, p);
      t.obj.Some? && t.obj.value in t.pools.objects && t.pools.objects[t.obj.value].poolKey == Some(p)
  {
    var popped := PopLive(s.table[p], s.objects);
    if popped.found.Some? {
      assert TopLive(s.table[p], s.objects, |popped.rest|);
    } else {
      assert NoneLive(s.table[p], s.objects);
    }
  }

  /** `Get` hands out the topmost live instance of a registered pool and
      drops the destroyed ones above it. */
  lemma GetPopsTopLive(s: Pools, p: Prefab, i: int)
    requires Valid(s) && p in s.table && TopLive(s.table[p], s.objects, i)
    ensures var g := Get(s, Some(p));
      g.obj == Some(s.table[p][i]) && g.pools.table == s.table[p := s.table[p][..i]] &&
      g.pools.nextId == s.nextId
  {
  }

  /** When every pooled instance of a registered key is destroyed, `Get`
      empties the stack and hands out a new instance. */
  lemma GetMakesWhenExhausted(s: Pools, p: Prefab)
    requires Valid(s) && p in s.table && NoneLive(s.table[p], s.objects)
    ensures var g := Get(s, Some(p));
      g.obj == Some(s.nextId) && s.nextId !in s.objects &&
      g.pools.table == s.table[p := []] && g.pools.nextId == s.nextId + 1 &&
      g.pools.objects[s.nextId].poolKey == Some(p)
  {
  }

  /** A destroyed instance is never handed out again. */
  lemma DestroyedNotReturned(s: Pools, id: InstanceId, key: Option<Prefab>)
    requires Valid(s) && id in s.objects
    ensures var d := DestroyInstance(s, id);
      Valid(d) && Get(d, key).obj != Some(id)
  {
    DestroyValid(s, id);
  }

  /** An unregistered key with no registry is registered empty, and the
      instance handed out is new. */
  lemma GetAutoRegisters(s: Pools, p: Prefab)
    requires Valid(s) && p !in s.table && s.registry.None?
    ensures var g := Get(s, Some(p));
      g.obj == Some(s.nextId) && g.pools.table == s.table[p := []] && g.pools.nextId == s.nextId + 1
  {
    var s1 := EnsurePool(s, p);
    assert s1.table[p] == [];
    assert NoneLive(s1.table[p], s1.objects);
  }

  /** An unregistered key the registry lists with a positive preload count
      `n` is registered with `n` new instances, and the one handed out is the
      last of them, from the top of the new stack. */
  lemma GetRegistersFromEntry(s: Pools, p: Prefab) returns (n: nat)
    requires Valid(s) && p !in s.table && s.registry.Some?
    requires var l := TryGetEntry(s.registry.value, Some(p)); l.found && l.entry.preloadCount > 0
    ensures n == TryGetEntry(s.registry.value, Some(p)).entry.preloadCount
    ensures Get(s, Some(p)).obj == Some(s.nextId + n - 1)
    ensures Get(s, Some(p)).pools.table == s.table[p := Range(s.nextId, n - 1)]
    ensures Get(s, Some(p)).pools.nextId == s.nextId + n
  {
    var s1 := EnsurePool(s, p);
    n := EnsurePoolFromEntry(s, p);
    TakeFromPreloaded(s1, p, s.table, s.nextId, n);
    GetIsTake(s, p);
  }

  /** `Get` on a key is `Take` from the key's pool once it exists. */
  lemma GetIsTake(s: Pools, p: Prefab)
    requires Valid(s)
    ensures Get(s, Some(p)) == Take(EnsurePool(s, p), p)
  {
  }

  /** The pool `Get` registers from a registry entry with a positive
      preload count `n`: `n` fresh live instances. */
  lemma EnsurePoolFromEntry(s: Pools, p: Prefab) returns (n: nat)
    requires Valid(s) && p !in s.table && s.registry.Some?
    requires var l := TryGetEntry(s.registry.value, Some(p)); l.found && l.entry.preloadCount > 0
    ensures n == TryGetEntry(s.registry.value, Some(p)).entry.preloadCount
    ensures var s1 := EnsurePool(s, p);
      s1.table == s.table[p := Range(s.nextId, n)] && s1.nextId == s.nextId + n &&
      s.nextId + n - 1 in s1.objects && !s1.objects[s.nextId + n - 1].isDestroyed
  {
    var l := TryGetEntry(s.registry.value, Some(p));
    n := l.entry.preloadCount;
    var s0 := s.(registry := Some(l.registry));
    assert EnsurePool(s, p) == Register(s0, Some(p), n);
  }

  /** Taking from a stack of `n` live instances `lo`, ..., `lo + n - 1`
      hands out the last and leaves the others. */
  lemma TakeFromPreloaded(s: Pools, p: Prefab, base: map<Prefab, seq<InstanceId>>, lo: nat, n: nat)
    requires s.table == base[p := Range(lo, n)] && n > 0
    requires lo + n - 1 in s.objects && !s.objects[lo + n - 1].isDestroyed
    ensures Take(s, p).obj == Some(lo + n - 1)
    ensures Take(s, p).pools.table == base[p := Range(lo, n - 1)]
    ensures Take(s, p).pools.nextId == s.nextId
  {
    var stack := s.table[p];
    assert stack[n - 1] == lo + n - 1;
    assert TopLive(stack, s.objects, n - 1);
    RangePrefix(lo, n);
    assert s.table[p := Range(lo, n - 1)] == base[p := Range(lo, n - 1)];
  }

  /** Registering a list of entries keeps the invariant. */
  lemma {:induction false} RegisterAllValid(s: Pools, es: seq<PoolEntry>)
    requires Valid(s)
    ensures Valid(RegisterAll(s, es))
    decreases |es|
  {
    if es != [] {
      var s1 := if es[0].prefab.None? then s else Register(s, es[0].prefab, es[0].preloadCount);
      RegisterValid(s, es[0].prefab, es[0].preloadCount);
      RegisterAllValid(s1, es[1..]);
    }
  }

  /** Registration from a list preloads each newly registered prefab with
      the count of the first entry naming it; later duplicates are ignored. */
  lemma {:induction false} RegisterAllFirstCount(s: Pools, es: seq<PoolEntry>, p: Prefab, i: int)
    requires p !in s.table && FirstFor(es, p, i)
    ensures |RegisterAll(s, es).table[p]| == Count(es[i].preloadCount)
    decreases |es|
  {
    var s1 := if es[0].prefab.None? then s else Register(s, es[0].prefab, es[0].preloadCount);
    ListsFront(es);
    if i == 0 {
      assert |s1.table[p]| == Count(es[0].preloadCount);
    } else {
      assert FirstFor(es[1..], p, i - 1) by {
        forall j | 0 <= j < i - 1
          ensures es[1..][j].prefab != Some(p)
        {
          assert es[1..][j] == es[j + 1];
        }
      }
      RegisterAllFirstCount(s1, es[1..], p, i - 1);
    }
  }

  /** On waking, the pools built from the registry and the registry's own
      lookup agree: a prefab has a pool exactly when a lookup finds it, and
      the pool holds as many instances as the entry found says to preload. */
  lemma RegistryPoolsAgree(entries: seq<PoolEntry>, p: Prefab)
    ensures var r := RegisterFromRegistry(Empty(Some(Loaded(entries))));
      var l := TryGetEntry(Loaded(entries), Some(p));
      (p in r.table <==> l.found) &&
      (l.found ==> |r.table[p]| == Count(l.entry.preloadCount))
  {
    BuildTableFirstWins(entries, p);
    FirstLookup(entries, p);
    var l := TryGetEntry(Loaded(entries), Some(p));
    if l.found {
      var i :| FirstFor(entries, p, i) && l.entry == entries[i];
      RegisterAllFirstCount(Empty(Some(Loaded(entries))), entries, p, i);
    }
  }
}

=== FILE: pool_registry.dfy ===
/** `PoolRegistry`: a list of per-prefab pool settings, looked up through a
    table built lazily on the first `TryGetEntry`. */
module PoolRegistries {
  import opened Wrappers
  import opened PooledObjects

  /** `PoolEntry`: the prefab (possibly null) and its preload count. The
      auto-release settings are not part of this model. */
  datatype PoolEntry = PoolEntry(prefab: Option<Prefab>, preloadCount: int)

  /** `default(PoolEntry)`. */
  const DefaultEntry: PoolEntry := PoolEntry(None, 0)

  /** The serialized `entries`, the `_lookupTable` and `_isInit`. */
  datatype PoolRegistry = PoolRegistry(entries: seq<PoolEntry>, lookup: map<Prefab, PoolEntry>, isInit: bool)

  /** A registry as loaded: not yet initialised, empty table. */
  function Loaded(entries: seq<PoolEntry>): PoolRegistry {
    PoolRegistry(entries, map[], false)
  }

  /** Some entry of `es` names prefab `p`. */
  predicate Lists(es: seq<PoolEntry>, p: Prefab) {
    exists i :: 0 <= i < |es| && es[i].prefab == Some(p)
  }

  /** `es[i]` is the first entry of `es` that names `p`. */
  predicate FirstFor(es: seq<PoolEntry>, p: Prefab, i: int) {
    0 <= i < |es| && es[i].prefab == Some(p) && forall j :: 0 <= j < i ==> es[j].prefab != Some(p)
  }

  /** The `foreach` of `Init` over `entries`: null prefabs are skipped, and a
      prefab already in the table keeps its entry (a duplicate is ignored). */
  function BuildTable(es: seq<PoolEntry>): (t: map<Prefab, PoolEntry>)
    ensures forall p :: p in t ==> t[p].prefab == Some(p)
    decreases |es|
  {
    if es == [] then map[]
    else
      var t := BuildTable(es[..|es| - 1]);
      var e := es[|es| - 1];
      if e.prefab.None? || e.prefab.value in t then t else t[e.prefab.value := e]
  }

  /** The table maps exactly the prefabs some entry names, each to the first
      entry naming it. */
  lemma {:induction false} BuildTableFirstWins(es: seq<PoolEntry>, p: Prefab)
    ensures p in BuildTable(es) <==> Lists(es, p)
    ensures p in BuildTable(es) ==> exists i :: FirstFor(es, p, i) && BuildTable(es)[p] == es[i]
    decreases |es|
  {
    if es != [] {
      var init := es[..|es| - 1];
      var e := es[|es| - 1];
      BuildTableFirstWins(init, p);
      assert forall j :: 0 <= j < |init| ==> init[j] == es[j];
      if Lists(init, p) {
        var i :| 0 <= i < |init| && init[i].prefab == Some(p);
        assert es[i] == init[i];
      }
      if p in BuildTable(init) {
        var i :| FirstFor(init, p, i) && BuildTable(init)[p] == init[i];
        assert FirstFor(es, p, i) by {
          forall j | 0 <= j < i
            ensures es[j].prefab != Some(p)
          {
            assert es[j] == init[j];
          }
        }
      } else if p in BuildTable(es) {
        assert FirstFor(es, p, |es| - 1) by {
          forall j | 0 <= j < |es| - 1
            ensures es[j].prefab != Some(p)
          {
            assert es[j] == init[j];
            assert !Lists(init, p);
          }
        }
      }
    }
  }

  /** `Init`: build the table once; later calls do nothing. */
  function InitTable(r: PoolRegistry): (r': PoolRegistry)
    ensures r'.isInit && r'.entries == r.entries
    ensures r.isInit ==> r' == r
    ensures !r.isInit ==> r'.lookup == BuildTable(r.entries)
  {
    if r.isInit then r else PoolRegistry(r.entries, BuildTable(r.entries), true)
  }

  /** The outcome of `TryGetEntry`: the registry afterwards (it may have
      built its table), the return value and the `out` entry. */
  datatype Lookup = Lookup(registry: PoolRegistry, found: bool, entry: PoolEntry)

  /** `TryGetEntry(prefab, out entry)`: build the table if needed; a null
      prefab is never found; otherwise look it up. */
  function TryGetEntry(r: PoolRegistry, prefab: Option<Prefab>): (l: Lookup)
    ensures l.registry == InitTable(r)
    ensures prefab.None? ==> !l.found && l.entry == DefaultEntry
    ensures prefab.Some? ==> (l.found <==> prefab.value in l.registry.lookup)
    ensures l.found ==> l.entry == l.registry.lookup[prefab.value]
    ensures !l.found ==> l.entry == DefaultEntry
  {
    var r1 := InitTable(r);
    if prefab.None? then Lookup(r1, false, DefaultEntry)
    else if prefab.value in r1.lookup then Lookup(r1, true, r1.lookup[prefab.value])
    else Lookup(r1, false, DefaultEntry)
  }

  /** The first lookup on a freshly loaded registry finds a prefab exactly
      when an entry names it, and returns the first such entry. */
  lemma FirstLookup(entries: seq<PoolEntry>, p: Prefab)
    ensures var l := TryGetEntry(Loaded(entries), Some(p));
      (l.found <==> Lists(entries, p)) &&
      (l.found ==> exists i :: FirstFor(entries, p, i) && l.entry == entries[i])
  {
    BuildTableFirstWins(entries, p);
  }

  /** The table is built once: a later lookup leaves the registry as it is. */
  lemma BuiltOnce(r: PoolRegistry, p: Option<Prefab>, q: Option<Prefab>)
    ensures var r1 := TryGetEntry(r, p).registry; TryGetEntry(r1, q).registry == r1
  {
  }

  /** Editing `entries` after the first lookup changes no later lookup. */
  lemma EditsAfterInitIgnored(r: PoolRegistry, p: Option<Prefab>, edited: seq<PoolEntry>, q: Option<Prefab>)
    ensures var r1 := TryGetEntry(r, p).registry;
      var l := TryGetEntry(r1.(entries := edited), q);
      var l0 := TryGetEntry(r1, q);
      l.found == l0.found && l.entry == l0.entry
  {
  }
}

=== FILE: pooled_event.dfy ===
/** `PooledEvent`: a struct handle onto a pooled `ColdData` record, with its
    Create / Bind / Invoke / Dispose lifecycle. Being a struct, every copy of
    a handle holds its own reference: `Dispose` nulls only the copy it is
    called on, and `Bind` returns a copy. */
module PooledEvents {
  import opened Wrappers
  import opened Cold
  import opened EventPool

  datatype PooledEvent = PooledEvent(cold: Option<SlotRef>)

  /** `default(PooledEvent)`: no record. */
  const Default: PooledEvent := PooledEvent(None)

  /** `IsValid`: the handle holds a record. */
  predicate IsValid(h: PooledEvent) {
    h.cold.Some?
  }

  /** The handle's reference, if any, names a record of the manager. */
  predicate Refers(h: PooledEvent, m: Manager) {
    h.cold.Some? ==> h.cold.value < |m.slots|
  }

  /** The handle's record is checked out: no copy of it has been disposed. */
  predicate Live(h: PooledEvent, m: Manager) {
    h.cold.Some? && h.cold.value in m.used
  }

  /** The handle's record links to itself, as `Create` leaves it. */
  predicate Linked(h: PooledEvent, m: Manager) {
    h.cold.Some? && h.cold.value < |m.slots| && m.slots[h.cold.value].managed.cold == h.cold
  }

  datatype Created = Created(handle: PooledEvent, manager: Manager)

  /** `Create`: take a record from the manager, link it to itself and wrap it. */
  function Create(m: Manager): (r: Created)
    requires Valid(m)
    ensures Valid(r.manager) && Linked(r.handle, r.manager)
    ensures r.manager.pool == GetCold(m).manager.pool && r.manager.used == m.used + [r.handle.cold.value]
    ensures |m.pool| > 0 ==> r.handle.cold == Some(m.pool[|m.pool| - 1])
    ensures PoolCleared(m) ==> PoolCleared(r.manager) && Unbound(r.manager.slots[r.handle.cold.value])
  {
    GetColdValid(m);
    var t := GetCold(m);
    var c := t.cold;
    var s := t.manager.slots[c];
    var linked := s.(managed := s.managed.(cold := Some(c)));
    assert linked.dispatch == s.dispatch && linked.dispatchObj == s.dispatchObj && linked.callback == s.callback;
    Created(PooledEvent(Some(c)), t.manager.(slots := t.manager.slots[c := linked]))
  }

  /** A created handle is live, and creating from a sound manager keeps it sound. */
  lemma CreateSound(m: Manager)
    requires Sound(m)
    ensures Sound(Create(m).manager) && Live(Create(m).handle, Create(m).manager)
  {
    GetColdPartitioned(m);
  }

  datatype Disposed = Disposed(handle: PooledEvent, manager: Manager)

  /** `Dispose`: a handle without a record does nothing; otherwise the record
      goes back to the manager and this copy of the handle forgets it. */
  function Dispose(h: PooledEvent, m: Manager): (r: Disposed)
    requires Valid(m) && Refers(h, m)
    ensures !IsValid(r.handle) && Valid(r.manager) && |r.manager.slots| == |m.slots|
    ensures !IsValid(h) ==> r.manager == m
    ensures IsValid(h) ==> r.manager.pool == m.pool + [h.cold.value]
    ensures IsValid(h) ==> Unbound(r.manager.slots[h.cold.value])
  {
    if h.cold.None? then Disposed(h, m)
    else
      ReleaseColdValid(m, h.cold.value);
      Disposed(PooledEvent(None), ReleaseCold(m, h.cold.value))
  }

  /** Disposing a live handle of a sound manager keeps it sound, and the
      record is no longer in use. */
  lemma DisposeKeepsSound(h: PooledEvent, m: Manager)
    requires Sound(m) && Live(h, m)
    ensures Sound(Dispose(h, m).manager) && h.cold.value !in Dispose(h, m).manager.used
  {
    ReleaseKeepsSound(m, h.cold.value);
  }

  /** A second `Dispose` of the same handle does nothing. */
  lemma DisposeTwice(h: PooledEvent, m: Manager)
    requires Valid(m) && Refers(h, m)
    ensures var d := Dispose(h, m); Dispose(d.handle, d.manager) == d
  {
  }

  /** The two assertions a bind can fail: `AssertValid`, and `Set`'s check of
      the back-link. */
  datatype BindError = InvalidHandle | ColdNotLinked

  datatype Bound = Bound(handle: PooledEvent, manager: Manager)

  /** `Bind` (both overloads): assert the handle is valid, reset the record's
      binding, install the new one through `ManagedData.Set`, and return a copy
      of the handle. A null action leaves the record unbound. */
  function Bind(h: PooledEvent, m: Manager, kind: Overload, target: Option<ObjectId>,
                action: Option<CallbackId>): (r: Result<Bound, BindError>)
    requires Valid(m) && Refers(h, m)
    ensures !IsValid(h) <==> r == Err(InvalidHandle)
    ensures r == Err(ColdNotLinked) <==> IsValid(h) && action.Some? && m.slots[h.cold.value].managed.cold.None?
    ensures r.Ok? ==> r.value.handle == h && Valid(r.value.manager)
    ensures r.Ok? ==> var n := r.value.manager;
      n.pool == m.pool && n.used == m.used && n.capacity == m.capacity && |n.slots| == |m.slots| &&
      forall i :: 0 <= i < |m.slots| && Some(i) != h.cold ==> n.slots[i] == m.slots[i]
    ensures r.Ok? ==> var s := r.value.manager.slots[h.cold.value];
      DebugReset(s) && s.managed == m.slots[h.cold.value].managed &&
      (action.None? ==> Unbound(s)) &&
      (action.Some? ==> s.callback == action && s.callbackTarget == target &&
                        s.dispatch == (kind == Plain) && s.dispatchObj == (kind == WithObject))
  {
    if h.cold.None? then Err(InvalidHandle)
    else
      var i := h.cold.value;
      var reset := m.slots[i := ResetForBind(m.slots[i])];
      assert SlotOk(reset[i], i);
      match Set(reset, reset[i].managed, kind, target, action)
      case Err(_) => Err(ColdNotLinked)
      case Ok(slots) =>
        assert forall j :: 0 <= j < |slots| ==> SlotOk(slots[j], j);
        Ok(Bound(h, m.(slots := slots)))
  }

  /** Binding through a live handle of a sound manager keeps it sound: the
      record being bound is not on the free list. */
  lemma BindKeepsSound(h: PooledEvent, m: Manager, kind: Overload, target: Option<ObjectId>, action: Option<CallbackId>)
    requires Sound(m) && Live(h, m)
    ensures var r := Bind(h, m, kind, target, action); r.Ok? ==> Sound(r.value.manager)
  {
    var i := h.cold.value;
    assert multiset(m.used)[i] >= 1;
    assert multiset(m.pool)[i] == 0;
  }

  /** Each `Bind` fully replaces the previous one: binding twice leaves the
      manager exactly as binding only the second time would. */
  lemma BindReplaces(h: PooledEvent, m: Manager, k1: Overload, t1: Option<ObjectId>, a1: Option<CallbackId>,
                     k2: Overload, t2: Option<ObjectId>, a2: Option<CallbackId>)
    requires Valid(m) && Linked(h, m)
    ensures Bind(h, m, k1, t1, a1).Ok?
    ensures var b := Bind(h, m, k1, t1, a1).value; Bind(h, b.manager, k2, t2, a2) == Bind(h, m, k2, t2, a2)
  {
    var b := Bind(h, m, k1, t1, a1).value;
    var i := h.cold.value;
    assert b.manager.slots[i].managed == m.slots[i].managed;
    assert b.manager.slots[i := ResetForBind(b.manager.slots[i])] == m.slots[i := ResetForBind(m.slots[i])];
  }

  datatype Invoked = Invoked(manager: Manager, log: seq<Outcome>)

  /** `Invoke`: a handle without a record does nothing; otherwise the plain
      dispatcher, if installed, runs on the record's `ManagedData`, and the
      debug count goes up only then. */
  function Invoke(h: PooledEvent, m: Manager, throws: bool): (r: Invoked)
    requires Valid(m) && Refers(h, m)
    ensures !IsValid(h) ==> r == Invoked(m, [])
    ensures r.manager.pool == m.pool && r.manager.used == m.used && r.manager.capacity == m.capacity
    ensures |r.manager.slots| == |m.slots|
    ensures IsValid(h) ==> var s := m.slots[h.cold.value];
      Calls(r.log) == (if s.dispatch then 1 else 0) &&
      (s.dispatch ==> r.log[0] == Called(s.callback.value, s.callbackTarget, NoArgument)) &&
      r.manager.slots[h.cold.value] == s.(debugInvokeCount := s.debugInvokeCount + if s.dispatch then 1 else 0)
    ensures forall i :: 0 <= i < |m.slots| && Some(i) != h.cold ==> r.manager.slots[i] == m.slots[i]
    ensures Valid(r.manager)
    ensures Sound(m) ==> Sound(r.manager)
  {
    if h.cold.None? then Invoked(m, [])
    else
      var i := h.cold.value;
      var s := m.slots[i];
      if s.dispatch then
        assert SlotOk(s, i);
        var log := Dispatch(s.managed, m.slots[s.managed.cold.value], NoArgument, throws);
        DispatchCallsOnce(s.managed, s, NoArgument, throws);
        var counted := s.(debugInvokeCount := s.debugInvokeCount + 1);
        assert SlotOk(counted, i);
        Invoked(m.(slots := m.slots[i := counted]), log)
      else
        Invoked(m, [])
  }

  /** `InvokeEvent(go)`: a handle without a record does nothing; otherwise
      the record notes `go` as the last invoke object, the GameObject
      dispatcher, if installed, runs with `go`, and only then the debug
      count goes up. */
  function InvokeEvent(h: PooledEvent, m: Manager, go: Option<ObjectId>, throws: bool): (r: Invoked)
    requires Valid(m) && Refers(h, m)
    ensures !IsValid(h) ==> r == Invoked(m, [])
    ensures r.manager.pool == m.pool && r.manager.used == m.used && r.manager.capacity == m.capacity
    ensures |r.manager.slots| == |m.slots|
    ensures IsValid(h) ==> var s := m.slots[h.cold.value];
      Calls(r.log) == (if s.dispatchObj then 1 else 0) &&
      (s.dispatchObj ==> r.log[0] == Called(s.callback.value, s.callbackTarget, GameObject(go))) &&
      r.manager.slots[h.cold.value] ==
        s.(debugInvokeObj := go, debugInvokeCount := s.debugInvokeCount + if s.dispatchObj then 1 else 0)
    ensures forall i :: 0 <= i < |m.slots| && Some(i) != h.cold ==> r.manager.slots[i] == m.slots[i]
    ensures Valid(r.manager)
    ensures Sound(m) ==> Sound(r.manager)
  {
    if h.cold.None? then Invoked(m, [])
    else
      var i := h.cold.value;
      var s := m.slots[i].(debugInvokeObj := go);
      assert SlotOk(s, i);
      if s.dispatchObj then
        var log := Dispatch(s.managed, s, GameObject(go), throws);
        DispatchCallsOnce(s.managed, s, GameObject(go), throws);
        var counted := s.(debugInvokeCount := s.debugInvokeCount + 1);
        assert SlotOk(counted, i);
        Invoked(m.(slots := m.slots[i := counted]), log)
      else
        Invoked(m.(slots := m.slots[i := s]), [])
  }

  /** An exception from the callback is caught inside the dispatcher: the
      state afterwards is the same, and the log only gains the logged error. */
  lemma InvokeContainsExceptions(h: PooledEvent, m: Manager, go: Option<ObjectId>)
    requires Valid(m) && Refers(h, m)
    ensures Invoke(h, m, true).manager == Invoke(h, m, false).manager
    ensures Invoke(h, m, true).log[..|Invoke(h, m, false).log|] == Invoke(h, m, false).log
    ensures InvokeEvent(h, m, go, true).manager == InvokeEvent(h, m, go, false).manager
    ensures InvokeEvent(h, m, go, true).log[..|InvokeEvent(h, m, go, false).log|] == InvokeEvent(h, m, go, false).log
  {
  }

  /** After a plain `Bind`, `Invoke` calls the bound action exactly once with
      the bound target, and `InvokeEvent` calls nothing. */
  lemma BindPlainThenInvoke(h: PooledEvent, m: Manager, target: Option<ObjectId>, action: CallbackId,
                            go: Option<ObjectId>, throws: bool)
    requires Valid(m) && Linked(h, m)
    ensures Bind(h, m, Plain, target, Some(action)).Ok?
    ensures var b := Bind(h, m, Plain, target, Some(action)).value;
      var r := Invoke(b.handle, b.manager, throws);
      Calls(r.log) == 1 && r.log[0] == Called(action, target, NoArgument) &&
      Calls(InvokeEvent(b.handle, b.manager, go, throws).log) == 0
  {
  }

  /** After a GameObject `Bind`, `InvokeEvent(go)` calls the bound action
      exactly once with the bound target and `go`, and `Invoke` calls nothing. */
  lemma BindWithObjectThenInvokeEvent(h: PooledEvent, m: Manager, target: Option<ObjectId>, action: CallbackId,
                                      go: Option<ObjectId>, throws: bool)
    requires Valid(m) && Linked(h, m)
    ensures Bind(h, m, WithObject, target, Some(action)).Ok?
    ensures var b := Bind(h, m, WithObject, target, Some(action)).value;
      var r := InvokeEvent(b.handle, b.manager, go, throws);
      Calls(r.log) == 1 && r.log[0] == Called(action, target, GameObject(go)) &&
      Calls(Invoke(b.handle, b.manager, throws).log) == 0
  {
  }
}

=== FILE: pooled_event_manager.dfy ===
/** `PooledEventManager`: a LIFO free list of `ColdData` records that doubles
    its capacity whenever it runs dry, plus the editor-build list of records
    in use. The manager is a value: each operation returns the next one. */
module EventPool {
  import opened Wrappers
  import opened Cold
  import opened Ranges

  /** The initial value of `_poolCapacity`. */
  const InitialCapacity: nat := 128

  /** The slot table (every `ColdData` ever allocated, by reference), the free
      list `_pool`, the in-use list `_used`, and `_poolCapacity`. */
  datatype Manager = Manager(slots: seq<ColdData>, pool: seq<SlotRef>, used: seq<SlotRef>, capacity: nat)

  /** A fresh record whose back-link points to itself. */
  function SelfLinked(i: SlotRef): (c: ColdData)
    ensures Unbound(c) && c.managed.cold == Some(i)
  {
    Blank.(managed := PooledEventData(None, Some(i)))
  }

  /** `_poolCapacity` is 128 doubled some number of times. */
  predicate Doubled(c: nat)
    decreases c
  {
    c == InitialCapacity || (c > InitialCapacity && c % 2 == 0 && Doubled(c / 2))
  }

  /** A record is well formed at reference `i`: its back-link is null or
      points to itself, and at most one dispatcher is installed, only on a
      linked record and only with a callback stored. */
  predicate SlotOk(c: ColdData, i: SlotRef) {
    (c.managed.cold.None? || c.managed.cold == Some(i)) &&
    !(c.dispatch && c.dispatchObj) &&
    ((c.dispatch || c.dispatchObj) ==> c.callback.Some? && c.managed.cold == Some(i))
  }

  /** Every reference in `rs` names a record of a table of `n`. */
  predicate AllBelow(rs: seq<SlotRef>, n: nat) {
    forall j :: 0 <= j < |rs| ==> rs[j] < n
  }

  /** The structural invariant every operation keeps, whatever the handles do:
      the capacity is a doubling of 128 and determines the table size, every
      listed reference is a real record, and every record is well formed. */
  predicate Valid(m: Manager) {
    m.capacity >= InitialCapacity && Doubled(m.capacity) &&
    |m.slots| + InitialCapacity == 2 * m.capacity &&
    AllBelow(m.pool, |m.slots|) && AllBelow(m.used, |m.slots|) &&
    (forall i :: 0 <= i < |m.slots| ==> SlotOk(m.slots[i], i))
  }

  /** Every record is in exactly one of the free list and the used list, once. */
  ghost predicate Partitioned(m: Manager) {
    forall x: SlotRef ::
      multiset(m.pool)[x] + multiset(m.used)[x] == if x < |m.slots| then 1 else 0
  }

  /** Every record on the free list has no binding. */
  predicate PoolCleared(m: Manager) {
    forall j :: 0 <= j < |m.pool| ==> m.pool[j] < |m.slots| && Unbound(m.slots[m.pool[j]])
  }

  /** The invariant of correct use, where no handle outlives its `Dispose`. */
  ghost predicate Sound(m: Manager) {
    Valid(m) && Partitioned(m) && PoolCleared(m)
  }

  /** `Init`: 128 self-linked records, all free, none used. */
  function Init(): (m: Manager)
    ensures |m.slots| == InitialCapacity && m.capacity == InitialCapacity
    ensures m.pool == Range(0, InitialCapacity) && m.used == []
    ensures forall i :: 0 <= i < |m.slots| ==> m.slots[i] == SelfLinked(i)
  {
    Manager(seq(InitialCapacity, i requires 0 <= i => SelfLinked(i)), Range(0, InitialCapacity), [], InitialCapacity)
  }

  /** After `Init` the free list holds exactly 128 records, each linked to
      itself, and the manager is sound. */
  lemma InitSound()
    ensures |Init().pool| == InitialCapacity
    ensures forall j :: 0 <= j < |Init().pool| ==>
      var r := Init().pool[j]; r < |Init().slots| && Init().slots[r].managed.cold == Some(r)
    ensures Sound(Init())
  {
    var m := Init();
    assert Valid(m);
    forall x: SlotRef
      ensures multiset(m.pool)[x] + multiset(m.used)[x] == if x < |m.slots| then 1 else 0
    {
      RangeCount(0, InitialCapacity, x);
    }
  }

  /** The expansion step of `GetCold`: double `_poolCapacity` and append that
      many new, unlinked records to the free list. */
  function Expand(m: Manager): (r: Manager)
    ensures r.capacity == 2 * m.capacity
    ensures |r.slots| == |m.slots| + r.capacity && r.slots[..|m.slots|] == m.slots
    ensures forall i :: |m.slots| <= i < |r.slots| ==> r.slots[i] == Blank
    ensures r.pool == m.pool + Range(|m.slots|, r.capacity) && r.used == m.used
  {
    var cap := 2 * m.capacity;
    Manager(m.slots + seq(cap, _ => Blank), m.pool + Range(|m.slots|, cap), m.used, cap)
  }

  lemma ExpandValid(m: Manager)
    requires Valid(m)
    ensures Valid(Expand(m))
    ensures PoolCleared(m) ==> PoolCleared(Expand(m))
  {
    var r := Expand(m);
    assert r.capacity / 2 == m.capacity;
    forall i | 0 <= i < |r.slots|
      ensures SlotOk(r.slots[i], i)
    {
      if i < |m.slots| {
        assert r.slots[i] == r.slots[..|m.slots|][i];
      }
    }
  }

  lemma ExpandPartitioned(m: Manager)
    requires Partitioned(m)
    ensures Partitioned(Expand(m))
  {
    var r := Expand(m);
    forall x: SlotRef
      ensures multiset(r.pool)[x] + multiset(r.used)[x] == if x < |r.slots| then 1 else 0
    {
      RangeCount(|m.slots|, r.capacity, x);
    }
  }

  /** The result of `GetCold`: the next manager and the record handed out. */
  datatype Taken = Taken(manager: Manager, cold: SlotRef)

  /** `GetCold`: if the free list is empty it is first expanded; then its
      last record is removed, added to the used list and returned. It fails
      only on an empty list with a zero capacity, which `Valid` rules out. */
  function GetCold(m: Manager): (r: Taken)
    requires |m.pool| > 0 || m.capacity > 0
    ensures r.manager.used == m.used + [r.cold]
    ensures |m.pool| > 0 ==> r.manager.capacity == m.capacity && r.manager.slots == m.slots
    ensures |m.pool| > 0 ==> r.cold == m.pool[|m.pool| - 1] && r.manager.pool == m.pool[..|m.pool| - 1]
    ensures |m.pool| == 0 ==> r.manager.capacity == 2 * m.capacity && r.manager.slots == Expand(m).slots
    ensures |m.pool| == 0 ==> r.cold == |m.slots| + r.manager.capacity - 1
    ensures |m.pool| == 0 ==> r.manager.pool == Range(|m.slots|, r.manager.capacity - 1)
  {
    Pop(if |m.pool| == 0 then Expand(m) else m)
  }

  /** The last record of a non-empty free list, moved to the used list. */
  function Pop(m: Manager): (r: Taken)
    requires |m.pool| > 0
    ensures r.cold == m.pool[|m.pool| - 1]
    ensures r.manager == m.(pool := m.pool[..|m.pool| - 1], used := m.used + [r.cold])
  {
    var idx := |m.pool| - 1;
    Taken(m.(pool := m.pool[..idx], used := m.used + [m.pool[idx]]), m.pool[idx])
  }

  /** `GetCold` never fails on a valid manager and keeps it valid; the record
      it hands out comes from the free list, so it carries no binding. */
  lemma GetColdValid(m: Manager)
    requires Valid(m)
    ensures var t := GetCold(m);
      Valid(t.manager) && t.cold < |t.manager.slots| &&
      (PoolCleared(m) ==> PoolCleared(t.manager) && Unbound(t.manager.slots[t.cold]))
  {
    var m1 := if |m.pool| == 0 then Expand(m) else m;
    if |m.pool| == 0 {
      ExpandValid(m);
    }
    var idx := |m1.pool| - 1;
    assert PoolCleared(m) ==> PoolCleared(m1);
    assert m1.pool[idx] < |m1.slots|;
  }

  /** Taking a record from a partitioned manager moves it from the free list
      to the used list: it is on the used list and no longer free. */
  lemma GetColdPartitioned(m: Manager)
    requires Valid(m) && Partitioned(m)
    ensures var t := GetCold(m);
      Partitioned(t.manager) && t.cold in t.manager.used && t.cold !in t.manager.pool
  {
    if |m.pool| == 0 {
      ExpandPartitioned(m);
      PopMoves(Expand(m));
    } else {
      PopMoves(m);
    }
  }

  /** Moving the top of the free list to the end of the used list keeps the
      partition. */
  lemma PopMoves(m: Manager)
    requires Partitioned(m) && |m.pool| > 0
    ensures var t := Pop(m); Partitioned(t.manager) && t.cold in t.manager.used && t.cold !in t.manager.pool
  {
    var t := Pop(m);
    var c, r := t.cold, t.manager;
    assert m.pool == r.pool + [c];
    assert multiset(m.pool) == multiset(r.pool) + multiset{c};
    assert multiset(r.used) == multiset(m.used) + multiset{c};
    forall x: SlotRef
      ensures multiset(r.pool)[x] + multiset(r.used)[x] == if x < |r.slots| then 1 else 0
    {
      assert multiset(m.pool)[x] + multiset(m.used)[x] == if x < |m.slots| then 1 else 0;
    }
    assert multiset(r.pool)[c] + multiset(r.used)[c] == 1;
  }

  /** `List.Remove`: drops the first occurrence of `x`, if there is one. */
  function RemoveFirst(xs: seq<SlotRef>, x: SlotRef): (r: seq<SlotRef>)
    ensures multiset(r) == multiset(xs) - multiset{x}
    ensures x in xs ==> |r| == |xs| - 1
    ensures x !in xs ==> r == xs
  {
    if xs == [] then []
    else if xs[0] == x then
      assert xs == [x] + xs[1..];
      xs[1..]
    else
      assert xs == [xs[0]] + xs[1..];
      [xs[0]] + RemoveFirst(xs[1..], x)
  }

  /** The record `ReleaseCold` puts back: cleared, then linked to itself again. */
  function Recycled(c: ColdData, self: SlotRef): (r: ColdData)
    ensures Unbound(r) && DebugReset(r)
    ensures r.managed == PooledEventData(None, Some(self))
  {
    var cleared := Clear(c);
    cleared.(managed := cleared.managed.(cold := Some(self)))
  }

  /** `ReleaseCold`: clear the record, restore its self-link, drop it from the
      used list and push it on the free list. Nothing stops a record being
      released twice. */
  function ReleaseCold(m: Manager, c: SlotRef): (r: Manager)
    requires c < |m.slots|
    ensures |r.slots| == |m.slots| && r.capacity == m.capacity
    ensures r.slots[c] == Recycled(m.slots[c], c)
    ensures forall i :: 0 <= i < |m.slots| && i != c ==> r.slots[i] == m.slots[i]
    ensures r.pool == m.pool + [c]
    ensures multiset(r.used) == multiset(m.used) - multiset{c}
    ensures c in m.used ==> |r.used| == |m.used| - 1
  {
    Manager(m.slots[c := Recycled(m.slots[c], c)], m.pool + [c], RemoveFirst(m.used, c), m.capacity)
  }

  /** `ReleaseCold` keeps a manager valid, and its free list cleared. */
  lemma ReleaseColdValid(m: Manager, c: SlotRef)
    requires Valid(m) && c < |m.slots|
    ensures Valid(ReleaseCold(m, c))
    ensures PoolCleared(m) ==> PoolCleared(ReleaseCold(m, c))
  {
    ReleaseSlotsOk(m, c);
    RemoveFirstBelow(m.used, c, |m.slots|);
    AppendBelow(m.pool, c, |m.slots|);
    if PoolCleared(m) {
      ReleasePoolCleared(m, c);
    }
  }

  lemma AppendBelow(rs: seq<SlotRef>, c: SlotRef, n: nat)
    requires AllBelow(rs, n) && c < n
    ensures AllBelow(rs + [c], n)
  {
  }

  lemma ReleaseSlotsOk(m: Manager, c: SlotRef)
    requires c < |m.slots|
    requires forall i :: 0 <= i < |m.slots| ==> SlotOk(m.slots[i], i)
    ensures var r := ReleaseCold(m, c); forall i :: 0 <= i < |r.slots| ==> SlotOk(r.slots[i], i)
  {
  }

  lemma ReleasePoolCleared(m: Manager, c: SlotRef)
    requires c < |m.slots| && PoolCleared(m)
    ensures PoolCleared(ReleaseCold(m, c))
  {
    var r := ReleaseCold(m, c);
    forall j | 0 <= j < |r.pool|
      ensures r.pool[j] < |r.slots| && Unbound(r.slots[r.pool[j]])
    {
      if j < |m.pool| {
        assert r.pool[j] == m.pool[j];
      }
    }
  }

  lemma {:induction false} RemoveFirstBelow(xs: seq<SlotRef>, x: SlotRef, n: nat)
    requires AllBelow(xs, n)
    ensures AllBelow(RemoveFirst(xs, x), n)
  {
    if xs != [] && xs[0] != x {
      RemoveFirstBelow(xs[1..], x, n);
    }
  }

  /** Releasing a used record from a sound manager leaves a sound one in
      which the record is free and no longer used. */
  lemma ReleaseKeepsSound(m: Manager, c: SlotRef)
    requires Sound(m) && c in m.used
    ensures Sound(ReleaseCold(m, c))
    ensures c in ReleaseCold(m, c).pool && c !in ReleaseCold(m, c).used
  {
    ReleaseColdValid(m, c);
    ReleasePartitioned(m, c);
  }

  lemma ReleasePartitioned(m: Manager, c: SlotRef)
    requires Valid(m) && Partitioned(m) && c in m.used
    ensures Partitioned(ReleaseCold(m, c))
    ensures c !in ReleaseCold(m, c).used
  {
    var k :| 0 <= k < |m.used| && m.used[k] == c;
    var r := ReleaseCold(m, c);
    var mp, mu := multiset(m.pool), multiset(m.used);
    assert multiset(r.pool) == mp + multiset{c};
    assert multiset(r.used) == mu - multiset{c};
    assert mu[c] >= 1;
    forall x: SlotRef
      ensures multiset(r.pool)[x] + multiset(r.used)[x] == if x < |r.slots| then 1 else 0
    {
      assert mp[x] + mu[x] == if x < |m.slots| then 1 else 0;
    }
    assert multiset(r.used)[c] == 0;
  }

  /** Releasing a record that is already free puts it on the free list a
      second time: the partition is lost, and two later `GetCold` calls
      would hand out the same record. */
  lemma ReleaseFreeRecordTwice(m: Manager, c: SlotRef)
    requires Partitioned(m) && c in m.pool && c < |m.slots|
    ensures multiset(ReleaseCold(m, c).pool)[c] == 2
    ensures !Partitioned(ReleaseCold(m, c))
  {
    var r := ReleaseCold(m, c);
    assert multiset(r.pool) == multiset(m.pool) + multiset{c};
    assert multiset(m.pool)[c] + multiset(m.used)[c] == 1;
  }

  /** The free list is a stack: a record released and then taken again comes
      straight back, and the free list is as it was. */
  lemma ReleaseThenGetCold(m: Manager, c: SlotRef)
    requires c < |m.slots|
    ensures GetCold(ReleaseCold(m, c)).cold == c
    ensures GetCold(ReleaseCold(m, c)).manager.pool == m.pool
    ensures GetCold(ReleaseCold(m, c)).manager.slots[c] == Recycled(m.slots[c], c)
  {
    var r := ReleaseCold(m, c);
    assert r.pool[..|r.pool| - 1] == m.pool;
  }

  /** `_poolCapacity` only ever grows, and then by doubling. */
  lemma {:induction false} CapacityDoubles(m: Manager)
    requires Valid(m)
    ensures var c := GetCold(m).manager.capacity;
      (c == m.capacity || c == 2 * m.capacity) && Doubled(c)
  {
    var c := GetCold(m).manager.capacity;
    if c != m.capacity {
      assert c / 2 == m.capacity;
    }
  }
}

=== FILE: pooled_object.dfy ===
/** `PooledObject`: the component every pooled instance carries, recording the
    prefab it was made from and whether it is in its pool or destroyed.
    GameObjects are opaque ids, and a null reference is `None`. */
module PooledObjects {
  import opened Wrappers

  /** A prefab GameObject, used as the key of its pool. */
  type Prefab = nat

  /** A pooled instance, named by its `PooledObject` component. */
  type InstanceId = nat

  /** `_poolKey`, `IsDestroyed`, `IsInPool`. */
  datatype PooledObject = PooledObject(poolKey: Option<Prefab>, isDestroyed: bool, isInPool: bool)

  /** A component just added to an instance: every field at its default. */
  const Added: PooledObject := PooledObject(None, false, false)

  /** `Init(prefab)`: key the object to `prefab`, mark it in the pool and alive. */
  function Init(o: PooledObject, prefab: Prefab): (r: PooledObject)
    ensures r.poolKey == Some(prefab) && r.isInPool && !r.isDestroyed
  {
    PooledObject(Some(prefab), false, true)
  }

  /** `MarkInUse`: out of the pool; nothing else changes. */
  function MarkInUse(o: PooledObject): (r: PooledObject)
    ensures !r.isInPool
    ensures r.poolKey == o.poolKey && r.isDestroyed == o.isDestroyed
  {
    o.(isInPool := false)
  }

  /** `MarkReleased`: back in the pool; nothing else changes. */
  function MarkReleased(o: PooledObject): (r: PooledObject)
    ensures r.isInPool
    ensures r.poolKey == o.poolKey && r.isDestroyed == o.isDestroyed
  {
    o.(isInPool := true)
  }

  /** `OnDestroy`, run by the engine when the instance is destroyed. */
  function OnDestroy(o: PooledObject): (r: PooledObject)
    ensures r.isDestroyed
    ensures r.poolKey == o.poolKey && r.isInPool == o.isInPool
  {
    o.(isDestroyed := true)
  }

  /** The operations that can happen to a component after it is added. */
  datatype Op = InitOp(prefab: Prefab) | InUseOp | ReleasedOp | DestroyOp

  function Apply(o: PooledObject, op: Op): PooledObject {
    match op
    case InitOp(p) => Init(o, p)
    case InUseOp => MarkInUse(o)
    case ReleasedOp => MarkReleased(o)
    case DestroyOp => OnDestroy(o)
  }

  function ApplyAll(o: PooledObject, ops: seq<Op>): PooledObject
    decreases |ops|
  {
    if ops == [] then o else ApplyAll(Apply(o, ops[0]), ops[1..])
  }

  /** Each mark is idempotent, and the two marks undo each other's effect on
      `IsInPool` while leaving the rest alone. */
  lemma MarksIdempotent(o: PooledObject)
    ensures MarkInUse(MarkInUse(o)) == MarkInUse(o)
    ensures MarkReleased(MarkReleased(o)) == MarkReleased(o)
    ensures MarkReleased(MarkInUse(o)) == MarkReleased(o)
    ensures MarkInUse(MarkReleased(o)) == MarkInUse(o)
  {
  }

  /** Once destroyed, an object stays destroyed through any sequence of
      operations without an `Init`, and only `Init` revives it. */
  lemma {:induction false} OnlyInitClearsDestroyed(o: PooledObject, ops: seq<Op>)
    requires o.isDestroyed
    requires forall i :: 0 <= i < |ops| ==> !ops[i].InitOp?
    ensures ApplyAll(o, ops).isDestroyed
    decreases |ops|
  {
    if ops != [] {
      OnlyInitClearsDestroyed(Apply(o, ops[0]), ops[1..]);
    }
  }

  /** The last `Init` decides the pool key: no other operation changes it. */
  lemma {:induction false} PoolKeyKept(o: PooledObject, prefab: Prefab, ops: seq<Op>)
    requires o.poolKey == Some(prefab)
    requires forall i :: 0 <= i < |ops| ==> !ops[i].InitOp?
    ensures ApplyAll(o, ops).poolKey == Some(prefab)
    decreases |ops|
  {
    if ops != [] {
      PoolKeyKept(Apply(o, ops[0]), prefab, ops[1..]);
    }
  }
}

=== FILE: ranges.dfy ===
/** Runs of consecutive identifiers, as handed out by an allocator. */
module Ranges {

  /** The identifiers `lo`, ..., `lo + n - 1`, in order. */
  function Range(lo: nat, n: nat): (rs: seq<nat>)
    ensures |rs| == n
    ensures forall i :: 0 <= i < n ==> rs[i] == lo + i
  {
    seq(n, i requires 0 <= i < n => lo + i)
  }

  /** The run holds exactly the identifiers from `lo` below `lo + n`. */
  lemma RangeMembers(lo: nat, n: nat)
    ensures forall x :: x in Range(lo, n) <==> lo <= x < lo + n
  {
    forall x: nat | lo <= x < lo + n
      ensures x in Range(lo, n)
    {
      assert Range(lo, n)[x - lo] == x;
    }
  }

  /** Each identifier of the run occurs in it once, and no other does. */
  lemma {:induction false} RangeCount(lo: nat, n: nat, x: nat)
    ensures multiset(Range(lo, n))[x] == if lo <= x < lo + n then 1 else 0
    decreases n
  {
    if n > 0 {
      assert Range(lo, n) == [lo] + Range(lo + 1, n - 1);
      RangeCount(lo + 1, n - 1, x);
    }
  }

  /** Dropping the last identifier of a run leaves the shorter run. */
  lemma RangePrefix(lo: nat, n: nat)
    requires n > 0
    ensures Range(lo, n)[..n - 1] == Range(lo, n - 1)
  {
  }
}

=== FILE: tree.dfy ===
/** The behaviour tree: nodes, the three composites and the leaf adapters,
    and one synchronous tick of a node (`Node.Update` around the node's own
    `OnUpdate`). */
module Tree {
  import opened Lifecycle
  import opened Wrappers

  /** `ParallelPolicy`. The source's `switch` has a third arm returning
      Running, which no value of the two-member enum reaches. */
  datatype Policy = Or | And

  /** The leaf adapters: `ConditionNode` (a bool function), `ActionNode`
      (a verdict function) and `FailNode`. The function a leaf wraps lives in
      the environment, keyed by the leaf's id. */
  datatype LeafKind = Condition | Action | Fail

  datatype CompositeKind = Sequence | Selector | Parallel(policy: Policy)

  /** A node owns its lifecycle state `core`; a composite owns its ordered
      children. `id` is a label used in traces. */
  datatype Node =
    | Leaf(id: nat, core: NodeCore, leaf: LeafKind)
    | Composite(id: nat, core: NodeCore, comp: CompositeKind, children: seq<Node>)

  /** The functions the leaves wrap, read at (leaf id, frame). In a tree
      with `UniqueIds`, the id names one leaf, and the controller ticks that
      leaf at most once per frame, so this is one value per call. */
  datatype Env = Env(condition: (nat, nat) -> bool, action: (nat, nat) -> NodeState)

  /** The ids of a tree, in pre-order. */
  function Ids(n: Node): seq<nat>
    decreases n, 1
  {
    match n
    case Leaf(id, _, _) => [id]
    case Composite(id, _, _, cs) => [id] + IdsAll(cs)
  }

  function IdsAll(cs: seq<Node>): seq<nat>
    decreases cs, 0
  {
    if |cs| == 0 then [] else Ids(cs[0]) + IdsAll(cs[1..])
  }

  /** No two nodes of the tree share an id. A tree value is acyclic and
      shares no subtree, but two of its nodes may still carry the same id.
      The environment, the traces and the editor flag sets tell nodes apart
      only by id, so they describe a source tree faithfully when this holds. */
  predicate UniqueIds(n: Node) {
    var ids := Ids(n);
    forall i, j :: 0 <= i < j < |ids| ==> ids[i] != ids[j]
  }

  /** What a tick makes observable: OnStart, the start of OnUpdate, a call
      of the wrapped leaf function, OnEnd. */
  datatype Event = Started(id: nat) | Updated(id: nat) | Called(id: nat) | Ended(id: nat)

  datatype Ticked = Ticked(verdict: NodeState, node: Node, trace: seq<Event>)

  /** Ticking a prefix of a child list: the verdicts of the children ticked,
      the whole child list afterwards, and the events in order. */
  datatype Pass = Pass(verdicts: seq<NodeState>, children: seq<Node>, trace: seq<Event>)

  datatype Composed = Composed(verdict: NodeState, pass: Pass)

  // ---------------------------------------------------------------------
  // Construction
  // ---------------------------------------------------------------------

  /** The `params Node[]` constructors: a null array gives no children. */
  function NewComposite(id: nat, comp: CompositeKind, children: Option<seq<Node>>): (n: Node)
    ensures n.Composite? && n.comp == comp && n.core == Fresh
    ensures children.None? ==> n.children == []
    ensures children.Some? ==> n.children == children.value
  {
    Composite(id, Fresh, comp, if children.Some? then children.value else [])
  }

  function NewLeaf(id: nat, leaf: LeafKind): (n: Node)
    ensures n.Leaf? && n.leaf == leaf && n.core == Fresh && Children(n) == []
  {
    Leaf(id, Fresh, leaf)
  }

  /** `CompositeNode.Children`, and the child list the flag reset walks:
      empty for a leaf. */
  function Children(n: Node): seq<Node> {
    if n.Composite? then n.children else []
  }

  /** `AddChild` of each composite: append at the end. */
  function AddChild(n: Node, child: Node): (r: Node)
    requires n.Composite?
    ensures r.Composite? && r.comp == n.comp && r.id == n.id && r.core == n.core
    ensures |Children(r)| == |Children(n)| + 1 && Children(r)[|Children(n)|] == child
    ensures Children(r)[..|Children(n)|] == Children(n)
  {
    n.(children := n.children + [child])
  }

  // ---------------------------------------------------------------------
  // Ticking
  // ---------------------------------------------------------------------

  function Last(vs: seq<NodeState>): NodeState
    requires |vs| > 0
  {
    vs[|vs| - 1]
  }

  /** The pass over a child list stopped at a child whose verdict is in `stop`. */
  predicate Stopped(vs: seq<NodeState>, stop: set<NodeState>) {
    |vs| > 0 && Last(vs) in stop
  }

  /** `Node.Update`: OnStart if not started, OnUpdate, OnEnd if terminal. */
  function Tick(n: Node, env: Env, frame: nat): (r: Ticked)
    decreases n, 1
  {
    var c := Evaluate(n, env, frame);
    var core := Advance(n.core, c.verdict);
    var node := match n
      case Leaf(id, _, leaf) => Leaf(id, core, leaf)
      case Composite(id, _, comp, _) => Composite(id, core, comp, c.pass.children);
    var prefix := (if n.core.started then [] else [Started(n.id)]) + [Updated(n.id)];
    var suffix := if IsTerminal(c.verdict) then [Ended(n.id)] else [];
    Ticked(c.verdict, node, prefix + c.pass.trace + suffix)
  }

  /** The verdicts at which each composite's loop leaves early. */
  function StopSet(comp: CompositeKind): set<NodeState> {
    match comp
    case Sequence => {Failure, Running}
    case Selector => {Success, Running}
    case Parallel(And) => {Failure}
    case Parallel(Or) => {Success}
  }

  /** `Evaluate` is the node's own `OnUpdate`. A leaf's pass ticks no children. */
  function Evaluate(n: Node, env: Env, frame: nat): (r: Composed)
    decreases n, 0
    ensures n.Composite? ==> |r.pass.children| == |n.children|
    ensures n.Leaf? ==> r.pass.verdicts == [] && r.pass.children == []
  {
    match n
    case Leaf(id, _, leaf) =>
      (match leaf
       case Condition => Composed(if env.condition(id, frame) then Success else Failure, Pass([], [], [Called(id)]))
       case Action => Composed(env.action(id, frame), Pass([], [], [Called(id)]))
       case Fail => Composed(Failure, Pass([], [], [])))
    case Composite(_, _, comp, children) =>
      match comp
      case Sequence => SequenceUpdate(children, env, frame)
      case Selector => SelectorUpdate(children, env, frame)
      case Parallel(And) => ParallelAndUpdate(children, env, frame)
      case Parallel(Or) => ParallelOrUpdate(children, env, frame)
  }

  /** The `foreach` over the children shared by every composite: tick each
      child in order, from the first, and leave the loop at the first child
      whose verdict is in `stop`. */
  function TickUntil(cs: seq<Node>, stop: set<NodeState>, env: Env, frame: nat): (r: Pass)
    decreases cs, 2
    ensures |r.verdicts| <= |cs| && |r.children| == |cs|
    ensures |cs| > 0 ==> |r.verdicts| > 0
    ensures forall i :: 0 <= i < |r.verdicts| - 1 ==> r.verdicts[i] !in stop
    ensures |r.verdicts| < |cs| ==> Stopped(r.verdicts, stop)
    ensures r.children[|r.verdicts|..] == cs[|r.verdicts|..]
  {
    if |cs| == 0 then Pass([], [], [])
    else
      var t := Tick(cs[0], env, frame);
      if t.verdict in stop then Pass([t.verdict], [t.node] + cs[1..], t.trace)
      else
        var rest := TickUntil(cs[1..], stop, env, frame);
        Pass([t.verdict] + rest.verdicts, [t.node] + rest.children, t.trace + rest.trace)
  }

  /** `SequenceNode.OnUpdate`: AND, leaving at the first child that is not a Success. */
  function SequenceUpdate(cs: seq<Node>, env: Env, frame: nat): (r: Composed)
    decreases cs, 3
    ensures |r.pass.children| == |cs|
    ensures r.verdict == Success <==>
      |r.pass.verdicts| == |cs| && forall i :: 0 <= i < |cs| ==> r.pass.verdicts[i] == Success
    ensures r.verdict != Success ==> |r.pass.verdicts| > 0 && r.verdict == Last(r.pass.verdicts)
    ensures |cs| == 0 ==> r.verdict == Success
  {
    var p := TickUntil(cs, {Failure, Running}, env, frame);
    assert forall i :: 0 <= i < |p.verdicts| - 1 ==> p.verdicts[i] == Success;
    assert !Stopped(p.verdicts, {Failure, Running}) ==> forall i :: 0 <= i < |p.verdicts| ==> p.verdicts[i] == Success;
    Composed(if Stopped(p.verdicts, {Failure, Running}) then Last(p.verdicts) else Success, p)
  }

  /** `SelectorNode.OnUpdate`: OR, leaving at the first child that is not a Failure. */
  function SelectorUpdate(cs: seq<Node>, env: Env, frame: nat): (r: Composed)
    decreases cs, 3
    ensures |r.pass.children| == |cs|
    ensures r.verdict == Failure <==>
      |r.pass.verdicts| == |cs| && forall i :: 0 <= i < |cs| ==> r.pass.verdicts[i] == Failure
    ensures r.verdict != Failure ==> |r.pass.verdicts| > 0 && r.verdict == Last(r.pass.verdicts)
    ensures |cs| == 0 ==> r.verdict == Failure
  {
    var p := TickUntil(cs, {Success, Running}, env, frame);
    assert forall i :: 0 <= i < |p.verdicts| - 1 ==> p.verdicts[i] == Failure;
    assert !Stopped(p.verdicts, {Success, Running}) ==> forall i :: 0 <= i < |p.verdicts| ==> p.verdicts[i] == Failure;
    Composed(if Stopped(p.verdicts, {Success, Running}) then Last(p.verdicts) else Failure, p)
  }

  /** `ParallelNode.UpdateAnd`: Failure at the first failing child; otherwise
      Success if all succeeded, else Running. */
  function ParallelAndUpdate(cs: seq<Node>, env: Env, frame: nat): (r: Composed)
    decreases cs, 3
    ensures |r.pass.children| == |cs|
    ensures r.verdict == Failure <==> Failure in r.pass.verdicts
    ensures r.verdict == Failure ==> Last(r.pass.verdicts) == Failure
    ensures r.verdict == Success <==>
      |r.pass.verdicts| == |cs| && forall i :: 0 <= i < |cs| ==> r.pass.verdicts[i] == Success
    ensures r.verdict == Running <==> Failure !in r.pass.verdicts && Running in r.pass.verdicts
    ensures r.verdict != Failure ==> |r.pass.verdicts| == |cs|
  {
    var p := TickUntil(cs, {Failure}, env, frame);
    var allSuccess := forall i :: 0 <= i < |p.verdicts| ==> p.verdicts[i] == Success;
    Composed(if Stopped(p.verdicts, {Failure}) then Failure
             else if allSuccess then Success else Running, p)
  }

  /** `ParallelNode.UpdateOr`: Success at the first succeeding child, else Running. */
  function ParallelOrUpdate(cs: seq<Node>, env: Env, frame: nat): (r: Composed)
    decreases cs, 3
    ensures |r.pass.children| == |cs|
    ensures r.verdict != Failure
    ensures r.verdict == Success <==> Success in r.pass.verdicts
    ensures r.verdict == Success ==> Last(r.pass.verdicts) == Success
    ensures r.verdict == Running ==> |r.pass.verdicts| == |cs|
  {
    var p := TickUntil(cs, {Success}, env, frame);
    Composed(if Stopped(p.verdicts, {Success}) then Success else Running, p)
  }
}

=== FILE: tree_facts.dfy ===
/** Properties of one tick of a behaviour tree: which children a composite
    ticks, how its verdict follows from theirs, what the leaf adapters
    return, what a tick leaves unchanged, and how the editor flags follow
    the events of the tick. */
module TreeFacts {
  import opened Lifecycle
  import opened Tree
  import opened Wrappers

  /** The verdicts of the children a composite's `OnUpdate` ticked, in order. */
  function ChildVerdicts(n: Node, env: Env, frame: nat): (vs: seq<NodeState>)
    requires n.Composite?
    ensures |vs| <= |n.children|
    ensures |n.children| > 0 ==> |vs| > 0
  {
    EvaluatePass(n, env, frame);
    Evaluate(n, env, frame).pass.verdicts
  }

  /** The events of ticking each node of `ns` in order. */
  function Traces(ns: seq<Node>, env: Env, frame: nat): seq<Event> {
    if |ns| == 0 then [] else Tick(ns[0], env, frame).trace + Traces(ns[1..], env, frame)
  }

  /** A node's own events before and after its `OnUpdate`. */
  function Opening(n: Node): seq<Event> {
    (if n.core.started then [] else [Started(n.id)]) + [Updated(n.id)]
  }

  function Closing(n: Node, v: NodeState): seq<Event> {
    if IsTerminal(v) then [Ended(n.id)] else []
  }

  lemma TickUnfold(n: Node, env: Env, frame: nat)
    ensures var r := Tick(n, env, frame); var c := Evaluate(n, env, frame);
      && r.verdict == c.verdict
      && (n.Composite? ==> r.node.children == c.pass.children)
      && r.trace == Opening(n) + c.pass.trace + Closing(n, c.verdict)
  {
  }

  lemma EvaluatePass(n: Node, env: Env, frame: nat)
    requires n.Composite?
    ensures Evaluate(n, env, frame).pass == TickUntil(n.children, StopSet(n.comp), env, frame)
  {
  }

  /** The loop over the children ticks a prefix of them, each once, in
      order, and the rest keep their state. */
  lemma {:induction false} TickUntilTicksPrefix(cs: seq<Node>, stop: set<NodeState>, env: Env, frame: nat)
    ensures var p := TickUntil(cs, stop, env, frame);
      forall i :: 0 <= i < |p.verdicts| ==>
        p.verdicts[i] == Tick(cs[i], env, frame).verdict && p.children[i] == Tick(cs[i], env, frame).node
    decreases |cs|
  {
    if |cs| > 0 {
      var t := Tick(cs[0], env, frame);
      var p := TickUntil(cs, stop, env, frame);
      if t.verdict in stop {
        assert p == Pass([t.verdict], [t.node] + cs[1..], t.trace);
      } else {
        var rest := TickUntil(cs[1..], stop, env, frame);
        assert p == Pass([t.verdict] + rest.verdicts, [t.node] + rest.children, t.trace + rest.trace);
        TickUntilTicksPrefix(cs[1..], stop, env, frame);
        assert p.verdicts[0] == t.verdict && p.children[0] == t.node;
        forall i | 0 < i < |p.verdicts|
          ensures p.verdicts[i] == Tick(cs[i], env, frame).verdict && p.children[i] == Tick(cs[i], env, frame).node
        {
          assert p.verdicts[i] == rest.verdicts[i - 1];
          assert p.children[i] == rest.children[i - 1];
          assert cs[1..][i - 1] == cs[i];
        }
      }
    }
  }

  /** The events of the loop are those of the ticked children, in order. */
  lemma {:induction false} TickUntilTrace(cs: seq<Node>, stop: set<NodeState>, env: Env, frame: nat)
    ensures var p := TickUntil(cs, stop, env, frame);
      p.trace == Traces(cs[..|p.verdicts|], env, frame)
    decreases |cs|
  {
    if |cs| > 0 {
      var t := Tick(cs[0], env, frame);
      var p := TickUntil(cs, stop, env, frame);
      if t.verdict in stop {
        assert p == Pass([t.verdict], [t.node] + cs[1..], t.trace);
        assert cs[..1] == [cs[0]];
        assert Traces([cs[0]], env, frame) == t.trace + Traces([], env, frame);
      } else {
        var rest := TickUntil(cs[1..], stop, env, frame);
        assert p == Pass([t.verdict] + rest.verdicts, [t.node] + rest.children, t.trace + rest.trace);
        TickUntilTrace(cs[1..], stop, env, frame);
        var k := |p.verdicts|;
        assert cs[..k][0] == cs[0];
        assert cs[..k][1..] == cs[1..][..k - 1];
      }
    }
  }

  /** A composite's tick: its own lifecycle events around the ticks of a
      prefix of its children, in insertion order; the first `k` children
      are ticked once each, every child before the last ticked one continued
      the loop, the loop stopped early only at a stopping verdict, and the
      children after the prefix are untouched. */
  lemma CompositeTick(n: Node, env: Env, frame: nat)
    requires n.Composite?
    ensures var r := Tick(n, env, frame); var vs := ChildVerdicts(n, env, frame); var k := |vs|;
      var cs := n.children;
      && (forall j :: 0 <= j < k ==>
            vs[j] == Tick(cs[j], env, frame).verdict && r.node.children[j] == Tick(cs[j], env, frame).node)
      && (forall j :: k <= j < |cs| ==> r.node.children[j] == cs[j])
      && (forall j :: 0 <= j < k - 1 ==> Tick(cs[j], env, frame).verdict !in StopSet(n.comp))
      && (k < |cs| ==> Tick(cs[k - 1], env, frame).verdict in StopSet(n.comp))
  {
    EvaluatePass(n, env, frame);
    TickUnfold(n, env, frame);
    var p := TickUntil(n.children, StopSet(n.comp), env, frame);
    TickUntilTicksPrefix(n.children, StopSet(n.comp), env, frame);
    var r := Tick(n, env, frame);
    var k := |ChildVerdicts(n, env, frame)|;
    assert r.node.children == p.children;
    forall j | k <= j < |n.children|
      ensures r.node.children[j] == n.children[j]
    {
      assert p.children[k..][j - k] == n.children[k..][j - k];
    }
  }

  /** `SequenceNode`: Success iff every child was ticked and succeeded;
      otherwise the verdict is that of the last child ticked, the first one
      that did not succeed. An empty sequence succeeds. */
  lemma SequenceVerdict(n: Node, env: Env, frame: nat)
    requires n.Composite? && n.comp == Sequence
    ensures var r := Tick(n, env, frame); var vs := ChildVerdicts(n, env, frame);
      && (r.verdict == Success <==>
            |vs| == |n.children| && forall j :: 0 <= j < |vs| ==> vs[j] == Success)
      && (r.verdict != Success ==> r.verdict == Last(vs))
      && (forall j :: 0 <= j < |vs| - 1 ==> vs[j] == Success)
      && (|n.children| == 0 ==> r.verdict == Success)
  {
    TickUnfold(n, env, frame);
    assert Evaluate(n, env, frame) == SequenceUpdate(n.children, env, frame);
  }

  /** `SelectorNode`: Failure iff every child was ticked and failed;
      otherwise the verdict is that of the last child ticked, the first one
      that did not fail. An empty selector fails. */
  lemma SelectorVerdict(n: Node, env: Env, frame: nat)
    requires n.Composite? && n.comp == Selector
    ensures var r := Tick(n, env, frame); var vs := ChildVerdicts(n, env, frame);
      && (r.verdict == Failure <==>
            |vs| == |n.children| && forall j :: 0 <= j < |vs| ==> vs[j] == Failure)
      && (r.verdict != Failure ==> r.verdict == Last(vs))
      && (forall j :: 0 <= j < |vs| - 1 ==> vs[j] == Failure)
      && (|n.children| == 0 ==> r.verdict == Failure)
  {
    TickUnfold(n, env, frame);
    assert Evaluate(n, env, frame) == SelectorUpdate(n.children, env, frame);
  }

  /** `ParallelNode` with the And policy: Failure iff a child failed, and
      then that child is the last one ticked; Success iff every child was
      ticked and succeeded; Running iff every child was ticked, none failed
      and one is running. An empty And-parallel succeeds. */
  lemma ParallelAndVerdict(n: Node, env: Env, frame: nat)
    requires n.Composite? && n.comp == Parallel(And)
    ensures var r := Tick(n, env, frame); var vs := ChildVerdicts(n, env, frame);
      && (r.verdict == Failure <==> Failure in vs)
      && (r.verdict == Failure ==> Last(vs) == Failure)
      && (r.verdict == Success <==>
            |vs| == |n.children| && forall j :: 0 <= j < |vs| ==> vs[j] == Success)
      && (r.verdict == Running <==> |vs| == |n.children| && Failure !in vs && Running in vs)
      && (|n.children| == 0 ==> r.verdict == Success)
  {
    TickUnfold(n, env, frame);
    assert Evaluate(n, env, frame) == ParallelAndUpdate(n.children, env, frame);
  }

  /** `ParallelNode` with the Or policy never fails: Success iff a child
      succeeded, and then that child is the last one ticked; otherwise
      Running after ticking every child, even when all of them failed or
      there are none. */
  lemma ParallelOrVerdict(n: Node, env: Env, frame: nat)
    requires n.Composite? && n.comp == Parallel(Or)
    ensures var r := Tick(n, env, frame); var vs := ChildVerdicts(n, env, frame);
      && r.verdict != Failure
      && (r.verdict == Success <==> Success in vs)
      && (r.verdict == Success ==> Last(vs) == Success)
      && (r.verdict == Running <==> |vs| == |n.children| && Success !in vs)
      && ((forall j :: 0 <= j < |vs| ==> vs[j] == Failure) ==> r.verdict == Running)
  {
    TickUnfold(n, env, frame);
    assert Evaluate(n, env, frame) == ParallelOrUpdate(n.children, env, frame);
  }

  /** The events of a composite's tick: its own opening events, then the
      complete tick of each child in the ticked prefix, in insertion order,
      then its own closing event. */
  lemma CompositeTrace(n: Node, env: Env, frame: nat)
    requires n.Composite?
    ensures var r := Tick(n, env, frame); var k := |ChildVerdicts(n, env, frame)|;
      r.trace == Opening(n) + Traces(n.children[..k], env, frame) + Closing(n, r.verdict)
  {
    TickUnfold(n, env, frame);
    EvaluatePass(n, env, frame);
    TickUntilTrace(n.children, StopSet(n.comp), env, frame);
  }

  /** `Node.Update` around any node: the new state is the lifecycle step for
      the verdict returned, so `_started` holds afterwards iff the verdict is
      Running; OnStart (the `Started` event) opens the trace iff the node was
      not started, and OnEnd closes it on a terminal verdict. */
  lemma TickLifecycle(n: Node, env: Env, frame: nat)
    ensures var r := Tick(n, env, frame);
      && r.node.id == n.id
      && r.node.core == Advance(n.core, r.verdict)
      && (r.node.core.started <==> r.verdict == Running)
      && r.node.core.lastResult == r.verdict
      && |r.trace| >= 1
      && r.trace[0] == (if n.core.started then Updated(n.id) else Started(n.id))
      && (!n.core.started ==> |r.trace| >= 2 && r.trace[1] == Updated(n.id))
      && (IsTerminal(r.verdict) ==> r.trace[|r.trace| - 1] == Ended(n.id))
  {
    TickUnfold(n, env, frame);
  }

  /** The events of a tick are the node's own events around those of its
      `OnUpdate`, and the node's own events are the images of the hooks
      `Node.Update` runs for the verdict, in order. */
  lemma TickHooks(n: Node, env: Env, frame: nat)
    ensures var r := Tick(n, env, frame);
      && r.trace == Opening(n) + Evaluate(n, env, frame).pass.trace + Closing(n, r.verdict)
      && Opening(n) + Closing(n, r.verdict) == HookEvents(n.id, Hooks(n.core, r.verdict))
  {
    TickUnfold(n, env, frame);
    OwnEventsAreHooks(n, Tick(n, env, frame).verdict);
  }

  // ---------------------------------------------------------------------
  // A node's own events are the hooks `Node.Update` runs
  // ---------------------------------------------------------------------

  /** The event a tick emits for a hook of node `id`. */
  function HookEvent(id: nat, h: Hook): Event {
    match h
    case OnStart => Started(id)
    case OnUpdate => Updated(id)
    case OnEnd => Ended(id)
  }

  function HookEvents(id: nat, hs: seq<Hook>): (es: seq<Event>)
    ensures |es| == |hs|
    decreases |hs|
  {
    if hs == [] then [] else [HookEvent(id, hs[0])] + HookEvents(id, hs[1..])
  }

  lemma {:induction false} HookEventsConcat(id: nat, a: seq<Hook>, b: seq<Hook>)
    ensures HookEvents(id, a + b) == HookEvents(id, a) + HookEvents(id, b)
    decreases |a|
  {
    if a == [] {
      assert a + b == b;
    } else {
      assert (a + b)[0] == a[0] && (a + b)[1..] == a[1..] + b;
      HookEventsConcat(id, a[1..], b);
      assert HookEvents(id, a + b) == [HookEvent(id, a[0])] + HookEvents(id, a[1..] + b);
    }
  }

  /** Each hook is counted by its own event: the events of node `id` hold as
      many `Started(id)` as there are OnStart calls, and so on. */
  lemma {:induction false} HookEventsCount(id: nat, hs: seq<Hook>, h: Hook)
    ensures multiset(HookEvents(id, hs))[HookEvent(id, h)] == multiset(hs)[h]
    decreases |hs|
  {
    if hs != [] {
      HookEventsCount(id, hs[1..], h);
      assert hs == [hs[0]] + hs[1..];
      assert multiset(hs) == multiset{hs[0]} + multiset(hs[1..]);
      var es := HookEvents(id, hs);
      assert multiset(es) == multiset{HookEvent(id, hs[0])} + multiset(HookEvents(id, hs[1..]));
    }
  }

  /** The events a node emits around its `OnUpdate` are exactly the images
      of the hooks `Node.Update` runs, in the same order. */
  lemma OwnEventsAreHooks(n: Node, v: NodeState)
    ensures Opening(n) + Closing(n, v) == HookEvents(n.id, Hooks(n.core, v))
  {
    var start: seq<Hook> := if n.core.started then [] else [OnStart];
    var end: seq<Hook> := if IsTerminal(v) then [OnEnd] else [];
    HookEventsConcat(n.id, start + [OnUpdate], end);
    HookEventsConcat(n.id, start, [OnUpdate]);
    assert HookEvents(n.id, [OnUpdate]) == [Updated(n.id)];
    assert HookEvents(n.id, start) == (if n.core.started then [] else [Started(n.id)]);
    assert HookEvents(n.id, end) == Closing(n, v);
  }

  /** One node ticked at each frame of `frames` in turn: the node afterwards,
      the verdicts it returned, and its own events (OnStart, update, OnEnd),
      without those of its children or of the function it wraps. */
  datatype Ticks = Ticks(node: Node, verdicts: seq<NodeState>, own: seq<Event>)

  function TickAll(n: Node, env: Env, frames: seq<nat>): (t: Ticks)
    ensures |t.verdicts| == |frames|
    decreases |frames|
  {
    if frames == [] then Ticks(n, [], [])
    else
      var r := Tick(n, env, frames[0]);
      var rest := TickAll(r.node, env, frames[1..]);
      Ticks(rest.node, [r.verdict] + rest.verdicts, Opening(n) + Closing(n, r.verdict) + rest.own)
  }

  /** Over any number of ticks, a node's state is the lifecycle run over the
      verdicts it returned, and its own events are the hooks of that run. */
  lemma {:induction false} TickAllFollowsRun(n: Node, env: Env, frames: seq<nat>)
    ensures var t := TickAll(n, env, frames);
      && t.node.id == n.id
      && t.node.core == Run(n.core, t.verdicts).core
      && t.own == HookEvents(n.id, Run(n.core, t.verdicts).hooks)
    decreases |frames|
  {
    if frames != [] {
      var r := Tick(n, env, frames[0]);
      var rest := TickAll(r.node, env, frames[1..]);
      TickLifecycle(n, env, frames[0]);
      TickHooks(n, env, frames[0]);
      TickAllFollowsRun(r.node, env, frames[1..]);
      var vs := [r.verdict] + rest.verdicts;
      assert vs[0] == r.verdict && vs[1..] == rest.verdicts;
      var step := Lifecycle.Update(n.core, r.verdict);
      assert Run(n.core, vs) == Step(Run(step.core, rest.verdicts).core, step.hooks + Run(step.core, rest.verdicts).hooks);
      HookEventsConcat(n.id, step.hooks, Run(step.core, rest.verdicts).hooks);
    }
  }

  /** The hook balance of `Node.Update` holds for a node of the tree ticked
      any number of times from a state that is not started: the OnStart
      events outnumber the OnEnd events by 0 or 1, by 1 exactly when the
      node is left mid-run, and there is one update event per tick. */
  lemma TickAllBalance(n: Node, env: Env, frames: seq<nat>)
    requires !n.core.started
    ensures var t := TickAll(n, env, frames);
      var d: int := multiset(t.own)[Started(n.id)] as int - multiset(t.own)[Ended(n.id)] as int;
      && (d == 0 || d == 1)
      && (d == 1 <==> t.node.core.started)
      && multiset(t.own)[Updated(n.id)] == |frames|
  {
    var t := TickAll(n, env, frames);
    TickAllFollowsRun(n, env, frames);
    HookEventsBalance(n.id, n.core, t.verdicts);
  }

  /** `Lifecycle.RunHookBalance` read through the events of the hooks. */
  lemma HookEventsBalance(id: nat, c: NodeCore, vs: seq<NodeState>)
    requires !c.started
    ensures var r := Run(c, vs); var es := multiset(HookEvents(id, r.hooks));
      var d: int := es[Started(id)] as int - es[Ended(id)] as int;
      && (d == 0 || d == 1)
      && (d == 1 <==> r.core.started)
      && es[Updated(id)] == |vs|
  {
    var r := Run(c, vs);
    RunHookBalance(c, vs);
    HookEventsCount(id, r.hooks, OnStart);
    HookEventsCount(id, r.hooks, OnUpdate);
    HookEventsCount(id, r.hooks, OnEnd);
  }

  // ---------------------------------------------------------------------
  // What a tick never changes
  // ---------------------------------------------------------------------

  /** A node with its lifecycle state erased everywhere: what is left is the
      ids, leaf kinds, composite kinds with their policies, and the child
      lists in order. */
  function Shape(n: Node): Node
    decreases n, 1
  {
    match n
    case Leaf(id, _, leaf) => Leaf(id, Fresh, leaf)
    case Composite(id, _, comp, cs) => Composite(id, Fresh, comp, Shapes(cs))
  }

  function Shapes(cs: seq<Node>): (r: seq<Node>)
    decreases cs, 0
    ensures |r| == |cs|
  {
    if |cs| == 0 then [] else [Shape(cs[0])] + Shapes(cs[1..])
  }

  /** A tick never changes the shape of the tree: no child is added, removed
      or reordered, a Parallel keeps its policy, a leaf keeps the function it
      wraps. Only lifecycle state changes. */
  lemma {:induction false} TickKeepsShape(n: Node, env: Env, frame: nat)
    ensures Shape(Tick(n, env, frame).node) == Shape(n)
    decreases n, 1
  {
    TickUnfold(n, env, frame);
    if n.Composite? {
      EvaluatePass(n, env, frame);
      TickUntilKeepsShape(n.children, StopSet(n.comp), env, frame);
    }
  }

  lemma {:induction false} TickUntilKeepsShape(cs: seq<Node>, stop: set<NodeState>, env: Env, frame: nat)
    ensures Shapes(TickUntil(cs, stop, env, frame).children) == Shapes(cs)
    decreases cs, 0
  {
    if |cs| > 0 {
      var t := Tick(cs[0], env, frame);
      TickKeepsShape(cs[0], env, frame);
      if t.verdict in stop {
        assert ([t.node] + cs[1..])[1..] == cs[1..];
      } else {
        var rest := TickUntil(cs[1..], stop, env, frame);
        TickUntilKeepsShape(cs[1..], stop, env, frame);
        assert ([t.node] + rest.children)[1..] == rest.children;
      }
    }
  }

  /** Erasing lifecycle state keeps the ids. */
  lemma {:induction false} IdsOfShape(n: Node)
    ensures Ids(Shape(n)) == Ids(n)
    decreases n, 1
  {
    if n.Composite? {
      IdsOfShapes(n.children);
    }
  }

  lemma {:induction false} IdsOfShapes(cs: seq<Node>)
    ensures IdsAll(Shapes(cs)) == IdsAll(cs)
    decreases cs, 0
  {
    if |cs| > 0 {
      IdsOfShape(cs[0]);
      IdsOfShapes(cs[1..]);
      assert ([Shape(cs[0])] + Shapes(cs[1..]))[1..] == Shapes(cs[1..]);
    }
  }

  /** A tick keeps every id in place, so a tree with unique ids keeps them. */
  lemma TickKeepsIds(n: Node, env: Env, frame: nat)
    ensures Ids(Tick(n, env, frame).node) == Ids(n)
    ensures UniqueIds(n) ==> UniqueIds(Tick(n, env, frame).node)
  {
    TickKeepsShape(n, env, frame);
    IdsOfShape(n);
    IdsOfShape(Tick(n, env, frame).node);
  }

  /** No resume index: a composite's own state (its started flag, flags and
      last result) has no influence on which children it ticks or on what
      they return. Every tick starts over at the first child. */
  lemma NoResumeIndex(n: Node, other: NodeCore, env: Env, frame: nat)
    requires n.Composite?
    ensures var m := Composite(n.id, other, n.comp, n.children);
      && ChildVerdicts(m, env, frame) == ChildVerdicts(n, env, frame)
      && Tick(m, env, frame).verdict == Tick(n, env, frame).verdict
      && Tick(m, env, frame).node.children == Tick(n, env, frame).node.children
  {
    var m := Composite(n.id, other, n.comp, n.children);
    TickUnfold(n, env, frame);
    TickUnfold(m, env, frame);
    EvaluatePass(n, env, frame);
    EvaluatePass(m, env, frame);
    assert Evaluate(m, env, frame) == Evaluate(n, env, frame);
  }

  /** A child left mid-run and then skipped (because an earlier sibling
      stopped the loop) keeps `_started`, so when it is next reached it does
      not get OnStart again. */
  lemma SkippedChildKeepsRun(n: Node, j: nat, env: Env, frame: nat, env': Env, frame': nat)
    requires n.Composite? && |ChildVerdicts(n, env, frame)| <= j < |n.children|
    requires n.children[j].core.started
    ensures var c := Tick(n, env, frame).node.children[j];
      && c == n.children[j]
      && c.core.started
      && Tick(c, env', frame').trace[0] == Updated(c.id)
  {
    CompositeTick(n, env, frame);
    TickLifecycle(n.children[j], env', frame');
  }

  // ---------------------------------------------------------------------
  // Leaf adapters
  // ---------------------------------------------------------------------

  /** `ConditionNode`: Success iff the condition holds, Failure otherwise;
      the condition is called once per tick; the node is never left started,
      so a not-started condition gets OnStart and OnEnd around every tick. */
  lemma ConditionLeaf(id: nat, core: NodeCore, env: Env, frame: nat)
    ensures var r := Tick(Leaf(id, core, Condition), env, frame);
      && (r.verdict == Success <==> env.condition(id, frame))
      && (r.verdict == Failure <==> !env.condition(id, frame))
      && !r.node.core.started
      && multiset(r.trace)[Called(id)] == 1
      && (!core.started ==> r.trace == [Started(id), Updated(id), Called(id), Ended(id)])
  {
    var n := Leaf(id, core, Condition);
    ConditionTick(id, core, env, frame);
    CalledOnceBetween(n, id);
    var t := Tick(n, env, frame).trace;
    assert multiset(t)[Called(id)] == 1;
    if !core.started {
      assert Opening(n) == [Started(id), Updated(id)];
      assert t == [Started(id), Updated(id), Called(id), Ended(id)];
    }
  }

  /** One tick of a condition leaf, spelled out. */
  lemma ConditionTick(id: nat, core: NodeCore, env: Env, frame: nat)
    ensures var n := Leaf(id, core, Condition);
      var r := Tick(n, env, frame);
      && r.verdict == (if env.condition(id, frame) then Success else Failure)
      && r.trace == Opening(n) + [Called(id)] + [Ended(id)]
      && !r.node.core.started
  {
    var n := Leaf(id, core, Condition);
    var v := if env.condition(id, frame) then Success else Failure;
    assert Evaluate(n, env, frame) == Composed(v, Pass([], [], [Called(id)]));
    TickUnfold(n, env, frame);
  }

  /** A leaf's opening and closing events hold no `Called`. */
  lemma CalledOnceBetween(n: Node, id: nat)
    ensures multiset(Opening(n) + [Called(id)] + [Ended(id)])[Called(id)] == 1
  {
    assert multiset(Opening(n) + [Called(id)] + [Ended(id)]) == multiset(Opening(n)) + multiset{Called(id), Ended(id)};
  }

  /** `ActionNode`: the verdict is the action's result unchanged, and the
      action is called once per tick. */
  lemma ActionLeaf(id: nat, core: NodeCore, env: Env, frame: nat)
    ensures var r := Tick(Leaf(id, core, Action), env, frame);
      && r.verdict == env.action(id, frame)
      && multiset(r.trace)[Called(id)] == 1
      && (r.node.core.started <==> env.action(id, frame) == Running)
  {
    TickUnfold(Leaf(id, core, Action), env, frame);
  }

  /** An action that returns Running stays started, and its next tick runs
      OnUpdate without OnStart. */
  lemma ActionRunningResumes(id: nat, core: NodeCore, env: Env, frame: nat, frame': nat)
    requires env.action(id, frame) == Running
    ensures var r := Tick(Leaf(id, core, Action), env, frame);
      && r.node.core.started
      && Started(id) !in Tick(r.node, env, frame').trace
  {
    var r := Tick(Leaf(id, core, Action), env, frame);
    TickUnfold(Leaf(id, core, Action), env, frame);
    TickUnfold(r.node, env, frame');
  }

  /** `FailNode`: Failure whatever its state, environment or frame; never
      left started; no wrapped function is called, and with no hook
      overridden its trace is only the lifecycle's own events. */
  lemma FailLeaf(id: nat, core: NodeCore, env: Env, frame: nat)
    ensures var r := Tick(Leaf(id, core, Fail), env, frame);
      && r.verdict == Failure
      && !r.node.core.started
      && r.trace == (if core.started then [] else [Started(id)]) + [Updated(id), Ended(id)]
  {
    TickUnfold(Leaf(id, core, Fail), env, frame);
  }

  /** A `FailNode` as the only child makes a Sequence, a Selector or an
      And-parallel fail. */
  lemma FailOnlyChild(id: nat, core: NodeCore, comp: CompositeKind, f: Node, env: Env, frame: nat)
    requires comp == Sequence || comp == Selector || comp == Parallel(And)
    requires f.Leaf? && f.leaf == Fail
    ensures Tick(Composite(id, core, comp, [f]), env, frame).verdict == Failure
  {
    var n := Composite(id, core, comp, [f]);
    assert f == Leaf(f.id, f.core, Fail);
    FailLeaf(f.id, f.core, env, frame);
    CompositeTick(n, env, frame);
    var vs := ChildVerdicts(n, env, frame);
    assert |vs| == 1 && vs[0] == Failure && Last(vs) == Failure;
    match comp {
      case Sequence => SequenceVerdict(n, env, frame);
      case Selector => SelectorVerdict(n, env, frame);
      case Parallel(_) => ParallelAndVerdict(n, env, frame);
    }
  }
}

=== FILE: wrappers.dfy ===
/** A nullable reference, and an outcome that may fail. */
module Wrappers {

  datatype Option<+T> = None | Some(value: T)

  datatype Result<+T, +E> = Ok(value: T) | Err(error: E)
}
